=== FILE: README.md ===
# Match Admin Hotkeys — key-binding reconciliation, modelled in Dafny

Match Admin Hotkeys is a BakkesMod plugin for Rocket League. It gives a
match admin six hotkeys: Blue +1, Blue −1, Orange +1, Orange −1, Pause
and Reset to Kickoff. The six keys are edited on a settings page. Each key
is stored in a console variable (cvar) and bound to a fixed action
identifier (`mah_blue_plus`, …, `mah_reset_kickoff`). The bindings are also
written to the plugin's own configuration file, `matchadminhotkeys.cfg`.

This project models the part of `MatchAdminHotkeys.cpp` that keeps those
places consistent:

- the key normaliser and the duplicate check (`keys.dfy`);
- the unbind-all command and the configuration text that `SaveCfg`
  writes, together with a reader for that text that proves the file
  determines the settings it was written from (`commands.dfy`);
- the phantom-bind scan of `binds.cfg`, with the regular expression
  replaced by a deterministic parser that is proved equivalent to a
  declarative statement of the pattern (`scrub.dfy`);
- the host as the plugin sees it: cvars, the two files, and an
  append-only trace of what the plugin asked the host to do (`host.dfy`);
- the apply sequence shared by Save and Reset to Defaults
  (`apply.dfy`);
- the settings page as a state machine over frames, plugin load, and
  their properties over any run of frames (`controller.dfy`,
  `frames.dfy`);
- the score handlers' clamp (`scores.dfy`);
- worked examples (`scenarios.dfy`).

`options.dfy` holds the `Option` type and `text.dfy` the string helpers
(runs, line splitting with `getline` semantics, joining and splitting on a
separator).

Modelling choices:

- **Frames.** One `Controller.Frame` is one rendering of the settings
  page. The edits typed this frame are a map from slot to character; NUL
  stands for a cleared field. At most one button is clicked per frame,
  because a click activates one widget.
- **Host.** A command is recorded as a structured `HostModel.Command`.
  `HostModel.CommandText` gives the exact text sent to the host.
  Executing a command only appends it to the trace: the model does not
  interpret commands, so `exec matchadminhotkeys.cfg` and `writeconfig`
  change no modelled state.
- **Configuration file.** An open failure is the input flag
  `configWritable`.
- **Bind file.** An unreadable `binds.cfg` is `None`.
- **Characters.** A Dafny `char` stands for one byte of the program's
  `std::string`. Text outside ASCII is its UTF-8 bytes, one `char` per
  byte. The normaliser therefore keeps the first byte, and two keys whose
  first bytes agree are duplicates, as in the program.

Four behaviours of the code are easy to misread:

- **Failed configuration write.** When the file cannot be opened, the
  Save and Reset branches still commit the snapshot. `SaveCfg` only logs
  and returns. See `Frames.SaveCommitsDespiteWriteFailure`.
- **Scrub result.** The scrub collects keys as a list in file order and
  keeps repeats; it is not a set.
- **Normaliser.** It keeps a non-letter first character and upper-cases
  only `a`–`z`. It does not drop non-letters.
- **Reset to Defaults gate.** Reset is disabled exactly when the last
  applied keys are the defaults. This holds even while the page has unsaved
  edits. Dirtiness plays no part in the gate. See `Frames.ResetGate`.

## Model

| member | source | states |
|---|---|---|
| Keys.NormalizeKey | MatchAdminHotkeys.cpp:102-108 | The result is normalised (at most one char, not a lower-case letter). It is empty exactly when the input is empty, otherwise one char equal to the input's first char up to case. The input is returned unchanged exactly when it is already normalised. |
| Keys.NormalizeKeyIdempotent | MatchAdminHotkeys.cpp:102-108 | Normalising twice is normalising once. |
| Keys.NormalizeAll | MatchAdminHotkeys.cpp:541-546 | Every slot becomes its normalised key. The record is unchanged exactly when all slots are already normalised. |
| Keys.FindDuplicateSpec | MatchAdminHotkeys.cpp:480-495 | The scan reports nothing exactly when the non-NUL lead chars are pairwise distinct. Otherwise it reports the char at the first position that repeats an earlier one, with no repeat before it. |
| Keys.Duplicate | MatchAdminHotkeys.cpp:480-495 | The `hasDuplicates` scan over the six lead characters in slot order. Its contract is carried by `Keys.FindDuplicateSpec` and `Keys.DuplicateIffSharedLead`: nothing is reported exactly when no two slots share a non-NUL lead, and a reported char is the first repeat. |
| Keys.DuplicateIffSharedLead | MatchAdminHotkeys.cpp:480-495 | No duplicate is reported exactly when no two different slots share a non-NUL lead char. A reported char is the lead of two different slots. |
| Keys.DefaultsNormalized | MatchAdminHotkeys.cpp:189-197 | The defaults U, J, I, K, P, O are fixed points of the normaliser. |
| Keys.DefaultsDistinct | MatchAdminHotkeys.cpp:592-597 | The defaults trip no duplicate check: no two slots share a lead char. Reset to Defaults may therefore apply them unchecked. |
| Commands.ManagedKeys | MatchAdminHotkeys.cpp:113-121 | The unbind-all releases 53 keys, ending with `Slash`. |
| Commands.UnbindAllIsUnbindList | MatchAdminHotkeys.cpp:110-124 | The unbind-all text is exactly one `unbind <k>;` per managed key, in order. |
| Commands.UnbindAllCommand | MatchAdminHotkeys.cpp:110-124 | The unbind-all text. Its contract is carried by `Commands.UnbindAllIsUnbindList`: one `unbind <k>;` per managed key, A, a, …, Z, z, then `Slash`. |
| Commands.ManagedKeysCoverLetters | MatchAdminHotkeys.cpp:113-120 | Every ASCII letter, upper or lower case, is among the managed keys. |
| Commands.UnbindAllOneLine | MatchAdminHotkeys.cpp:676-682 | The unbind-all text has no line feed, so the alias that carries it stays one line. |
| Commands.ReadBindAliasLine | MatchAdminHotkeys.cpp:684-691 | A bind alias line written for keys free of `;` and `"` reads back as exactly those six keys. |
| Commands.ReadBodyLines | MatchAdminHotkeys.cpp:693-695 | The two override lines carry their values inside double quotes and read back as those values. |
| Commands.ReadConfigText | MatchAdminHotkeys.cpp:669-695 | Round trip: the written configuration file reads back as the six keys and two overrides it was written from. This holds for keys that are non-empty and free of blank, tab, NUL, `;`, `"` and line feed, and for overrides free of `"` and line feed. The reader rejects a `"` inside the alias body or an override, as the host would end the quoted text there. It rejects an empty key, or one holding a blank, tab or NUL, as the host would not read it as the key of `bind <key> <identifier>`. |
| Commands.UnreadableKeyNotReadBack | MatchAdminHotkeys.cpp:684-691 | The other side of the round trip: a file written with an empty key, or a key holding a blank, tab or NUL, never reads back as the settings it was written from. |
| Commands.ConfigText | MatchAdminHotkeys.cpp:669-695 | The text `SaveCfg` writes. Its contract is carried by `Commands.ReadConfigText`: the file reads back as the keys and overrides it was written from. |
| Scrub.ParseBindLine | MatchAdminHotkeys.cpp:137 | Soundness: a parsed line matches the bind pattern at some positions, and the result is the key and quoted command at those positions. |
| Scrub.ParseBindLineComplete | MatchAdminHotkeys.cpp:137 | Completeness: any way a line matches the pattern gives the parser's result. The parser therefore accepts exactly the matching lines, and the match is unique. |
| Scrub.PhantomKeysOneLine | MatchAdminHotkeys.cpp:145-159 | The scan of a one-line file, in terms of the parser: it yields one key exactly when the line parses and its command contains one of the six identifiers as a case-sensitive substring, and nothing otherwise. It is the base case that `Scrub.PhantomKeysAppend` extends to whole files. `Scrub.PhantomKeyMatchesPattern` states the same per-line condition against the pattern and names the key. |
| Scrub.PhantomKeys | MatchAdminHotkeys.cpp:143-161 | At most one key per line. Its full contract is carried by `Scrub.PhantomKeysOneLine`, `Scrub.PhantomKeysAppend`, `Scrub.PhantomKeysEmptyIff` and `Scrub.PhantomKeysContributed`. |
| Scrub.PhantomKeyMatchesPattern | MatchAdminHotkeys.cpp:137-158 | A line contributes key `k` exactly when it matches the bind pattern with `k` as the key and a quoted command that contains one of the six identifiers. |
| Scrub.PhantomKeysAppend | MatchAdminHotkeys.cpp:143-161 | The keys of two concatenated files are the keys of the first followed by those of the second: file order, one entry per matching line. |
| Scrub.PhantomKeysEmptyIff | MatchAdminHotkeys.cpp:143-164 | Nothing is collected exactly when no line contributes. |
| Scrub.PhantomKeysContributed | MatchAdminHotkeys.cpp:143-161 | Every collected key comes from some contributing line. |
| Scrub.ScrubKeys | MatchAdminHotkeys.cpp:134-136 | An unreadable bind file yields no keys. |
| HostModel.RegisterCvar | MatchAdminHotkeys.cpp:246-256 | Registration keeps a stored value, otherwise installs the default, and touches no other cvar. |
| HostModel.SetCvarValue | MatchAdminHotkeys.cpp:560-565 | The cvar holds the new value, other cvars are unchanged, and the write is recorded. |
| Apply.PersistBinds | MatchAdminHotkeys.cpp:126-129 | Appends `writeconfig` to the trace and changes nothing else. |
| Apply.UnbindAllManagedKeys | MatchAdminHotkeys.cpp:110-124 | Appends the unbind-all command to the trace and changes nothing else. |
| Apply.ScrubEvents | MatchAdminHotkeys.cpp:163-175 | The scrub issues nothing exactly when no key was collected. Otherwise it issues one unbind list of the collected keys followed by `writeconfig`. |
| Apply.ScrubPhantoms | MatchAdminHotkeys.cpp:131-177 | The scrub only appends those commands and changes no cvar. With no key collected the host is untouched. |
| Apply.StoreKeyCvars | MatchAdminHotkeys.cpp:560-565 | Six cvar writes in slot order. Afterwards each key cvar holds its slot's key and the override cvars are unchanged. |
| Apply.SaveCfg | MatchAdminHotkeys.cpp:652-699 | If the file opens, it is replaced by the text for the keys and the current overrides, and the write is recorded. If it does not open, nothing changes. |
| Apply.Prepare | MatchAdminHotkeys.cpp:556-558 | The opening steps append scrub, unbind-all and `writeconfig`, in that order. |
| Apply.Reload | MatchAdminHotkeys.cpp:569-571 | The closing steps append unbind-all, `exec matchadminhotkeys.cfg` and `writeconfig`. |
| Apply.ApplyKeys | MatchAdminHotkeys.cpp:556-571 | The apply sequence shared by Save and Reset. Its contract is carried by `Apply.ApplyKeysTrace` (the order of effects) and `Apply.ApplyKeysState` (the state afterwards). |
| Apply.ApplyKeysTrace | MatchAdminHotkeys.cpp:556-571 | The full apply trace in order: scrub, unbind-all, `writeconfig`, six cvar sets, configuration write (if it opened), unbind-all, exec, `writeconfig`. |
| Apply.ApplyKeysState | MatchAdminHotkeys.cpp:556-571 | Afterwards the key cvars hold the applied keys. The configuration file holds the text for the keys and the prior overrides, or is unchanged if it did not open. No plugin step writes the override cvars or the bind file; what the host's `exec` and `writeconfig` do to them is outside the model (see "Left out"). |
| Apply.ApplyKeysConfigReadsBack | MatchAdminHotkeys.cpp:560-567 | After an apply with a writable file, the file reads back as the applied keys and the host's overrides. |
| Apply.ApplyKeysTwice | MatchAdminHotkeys.cpp:556-571 | Applying the same keys twice leaves the cvars and the configuration file as one apply did. Its bind-file clause only says that no plugin step writes that file (see "Left out"). |
| Controller.IsDirty | MatchAdminHotkeys.cpp:179-187 | Dirty exactly when the working keys differ from the snapshot. |
| Controller.IsAtDefaultsSaved | MatchAdminHotkeys.cpp:189-197 | True exactly when the snapshot is U, J, I, K, P, O. |
| Controller.SnapshotLastSaved | MatchAdminHotkeys.cpp:199-208 | The snapshot becomes the working keys, the page is clean, and the notice flag is cleared. |
| Controller.DrawCharField | MatchAdminHotkeys.cpp:421-434 | An edit leaves exactly the typed char upper-cased (NUL when cleared). An untouched field keeps a value of at most one char and cuts a longer one to its normalised first char. A normalised value stays normalised. |
| Controller.ApplyEdits | MatchAdminHotkeys.cpp:445-470 | Each of the six fields is drawn with its own edit. |
| Controller.ApplyEditsEffect | MatchAdminHotkeys.cpp:421-434 | An edited slot holds the typed char upper-cased. An untouched slot of at most one char is unchanged. Normalised fields stay normalised. |
| Controller.Noticed | MatchAdminHotkeys.cpp:499-502 | The notice flag is set exactly when it already was or the page is dirty; the keys are unchanged. |
| Controller.SaveBranch | MatchAdminHotkeys.cpp:539-576 | Normalises all fields. If the re-check finds a duplicate, the host, snapshot and flag are unchanged. Otherwise the keys are applied and committed and the page is clean. |
| Controller.RevertBranch | MatchAdminHotkeys.cpp:578-588 | The fields return to the snapshot, the page is clean, and the flag is cleared. |
| Controller.ResetBranch | MatchAdminHotkeys.cpp:590-619 | Fields and snapshot become the defaults, which are applied. The page is clean and at the defaults. |
| Controller.Frame | MatchAdminHotkeys.cpp:477-522 | A frame without a click never touches the host. At the end of every frame a dirty page has raised its notice. |
| Controller.RegisterAllValue | MatchAdminHotkeys.cpp:246-251 | A registration whose name is registered only once yields the stored value, or its default. |
| Controller.RegisterKeyCvarsValues | MatchAdminHotkeys.cpp:246-251 | Each key cvar keeps its stored value, or starts at its slot's default. |
| Controller.RegisterKeyCvarsKeepsOverrides | MatchAdminHotkeys.cpp:246-251 | Registering the key cvars leaves the override cvars alone. |
| Controller.LoadHost | MatchAdminHotkeys.cpp:246-256 | Load issues exactly one command, `exec matchadminhotkeys.cfg`, leaves the key cvars as their registration made them, and writes no file. |
| Controller.LoadForm | MatchAdminHotkeys.cpp:635-650 | The fields take the normalised key cvars. The page is clean, normalised, and the notice is not raised. |
| Controller.OnLoad | MatchAdminHotkeys.cpp:239-266 | After load the page is clean, normalised and without the notice, and the only command sent is `exec matchadminhotkeys.cfg`. Field values are stated by `Controller.OnLoadState`. |
| Controller.OnLoadState | MatchAdminHotkeys.cpp:239-266 | After load each field holds the normalised stored key, or the default when none was stored. The page is clean and one command was issued. |
| Controller.OnLoadFresh | MatchAdminHotkeys.cpp:246-251 | With nothing stored, load yields the defaults and reports them as saved. |
| Frames.FrameIdle | MatchAdminHotkeys.cpp:499-502 | A frame without a click only applies the edits and raises the notice. |
| Frames.SaveGate | MatchAdminHotkeys.cpp:514-520 | Save acts exactly when the edited page is dirty and duplicate-free; otherwise the click changes nothing. |
| Frames.RevertGate | MatchAdminHotkeys.cpp:521 | Revert acts exactly when the page is dirty; on a clean page the click changes nothing. |
| Frames.ResetGate | MatchAdminHotkeys.cpp:522 | Reset acts exactly when the snapshot is not the defaults, regardless of dirtiness or duplicates. |
| Frames.SaveCommits | MatchAdminHotkeys.cpp:539-576 | After a successful save, fields and snapshot are the normalised keys, the page is clean, and the host received the full apply sequence for those keys. |
| Frames.SaveCommitsDespiteWriteFailure | MatchAdminHotkeys.cpp:567-573 | With an unopenable configuration file, a save still commits the snapshot while the file keeps its old contents. |
| Frames.FrameAppliesOnlyDistinct | MatchAdminHotkeys.cpp:514-619 | No frame applies keys that hold a duplicate. A frame either leaves the host alone or runs the apply sequence for a duplicate-free assignment. A Save applies only keys that passed the re-check. A Reset applies the defaults. |
| Frames.BlockedSaveHasNoEffect | MatchAdminHotkeys.cpp:548-554 | When the re-check finds a duplicate, no command reaches the host and the snapshot is unchanged. |
| Frames.NormalizedSaveNeverBlocked | MatchAdminHotkeys.cpp:541-554 | On normalised fields, a save that passed the gate always commits. |
| Frames.FramePreservesNormalized | MatchAdminHotkeys.cpp:421-434 | Normalised fields and snapshot stay normalised across any frame. |
| Frames.CleanPageIsIdle | MatchAdminHotkeys.cpp:514-522 | On a clean, normalised page with no edits, Save and Revert clicks change nothing. |
| Frames.SecondSaveIsIgnored | MatchAdminHotkeys.cpp:514-576 | A second Save right after a successful one changes nothing. |
| Frames.ClearedField | MatchAdminHotkeys.cpp:429 | A cleared field holds one NUL. It never takes part in a duplicate, and it makes the page dirty unless that slot's snapshot is NUL too. |
| Frames.RunPreservesNormalized | MatchAdminHotkeys.cpp:421-434 | After any run of frames from a normalised state, fields and snapshot are normalised. |
| Frames.RecheckNeverFires | MatchAdminHotkeys.cpp:548-554 | In every state reachable from plugin load, a Save that passes the gate commits: the re-check is redundant there. |
| Scores.Clamped | MatchAdminHotkeys.cpp:276-278 | The new score is never negative. It is current + delta when that is non-negative, and 0 otherwise. |
| Scores.AdjustScore | MatchAdminHotkeys.cpp:269-295 | A change of 0 or a disabled plugin changes nothing, and unresolved teams stay unresolved. Otherwise only the chosen team's score moves, clamped at 0. |
| Scores.ScoreKeyEffect | MatchAdminHotkeys.cpp:258-261 | A `+` key adds one and a `-` key removes one, never below 0. The other team is untouched and a disabled plugin changes nothing. |
| Scores.ScoreExamples | MatchAdminHotkeys.cpp:269-281 | 0 − 1 stays 0; 3 + 1 gives 4; unresolved teams stay unresolved. |
| Scenarios.DefaultLoad | MatchAdminHotkeys.cpp:239-266 | Loading with nothing stored shows U, J, I, K, P, O, clean and at the defaults. |
| Scenarios.TypingDuplicate | MatchAdminHotkeys.cpp:421-522 | Typing `i` for Blue +1 gives `I`, a duplicate of Orange +1. The page is dirty, Save is disabled, and a click sends nothing. |
| Scenarios.ResolveAndSave | MatchAdminHotkeys.cpp:539-576 | Typing `L` for Orange +1 and saving commits I, J, L, K, P, O. The configuration file reads back as those keys. |
| Scenarios.RecheckCatchesCaseDuplicate | MatchAdminHotkeys.cpp:541-554 | Unnormalised fields `a` and `A` pass the gate. The re-check then stops the save, with no effect. |
| Scenarios.AccentKeysClash | MatchAdminHotkeys.cpp:480-495 | Keys `é` and `è`, held as the UTF-8 bytes C3 A9 and C3 A8, share their first byte: the duplicate check reports C3, and normalising leaves C3 in both slots. |
| Scenarios.ClearedKeySaved | MatchAdminHotkeys.cpp:429-695 | Clearing Blue +1 and saving goes through, since a cleared slot is no duplicate. The file written then carries `bind <NUL> mah_blue_plus` and does not read back as the saved keys. |
| Scenarios.ResetFromInvalid | MatchAdminHotkeys.cpp:590-619 | A dirty page with a duplicate can still be reset to the defaults. |
| Scenarios.ScrubFindsZ | MatchAdminHotkeys.cpp:143-175 | A bind file with `bind Z "mah_reset_kickoff"` yields the key `Z`. The scrub sends `unbind Z;` and then `writeconfig`. |

## Left out

- ImGui layout, drawing, styling and button colours: the model keeps only
  the enabled/disabled gating and the `unsavedToastShown` flag.
- Toasts and `LOG`: they are notification sinks with no effect on state.
- The `CharsUppercase` and `CharsNoBlank` input filters are ImGui library
  behaviour. The model admits any typed character and relies on the
  plugin's own normalisation.
- File I/O: `ifstream`, `ofstream` and `GetBakkesModPath`. Files are
  strings; an open failure is an input flag.
- `std::regex` is a library engine. It is replaced by a parser proved
  equivalent to the pattern.
- The host's command interpreter. `exec matchadminhotkeys.cfg`,
  `writeconfig`, `unbind` and `bind` are recorded, not run. The model
  therefore does not track the host's bind table or the rewrite of
  `binds.cfg` that `writeconfig` performs. The configuration file's
  effect is stated as a reader round trip instead.
- Load ordering: load runs the configuration file before registering the
  two override cvars. Whether the host keeps values for cvars that are
  not yet registered is host behaviour and is not modelled.
- `DoPauseToggle`, `DoKickoffReset`, `FindTeams`, `GetLocalPC` and
  `ExecMulti`: these are thin wrappers over game-host objects. The teams
  lookup is the `Option` input to `Scores.AdjustScore`.
- Notifier registration and the plugin macro are host plumbing. Only the
  slot-to-score mapping is kept, as `Scores.ScoreAction`.
- `MatchAdminHotkeys.h` holds declarations only.
- A missing `gameWrapper`: the settings page dereferences it
  unconditionally, so the model assumes it is present.
- The `mah_enabled` cvar's string-to-bool conversion: the model takes
  the resulting flag as a `bool`.
- Scores.AdjustScore: uses unbounded integers. It does not model overflow
  of `int` in `current + delta`, which needs a score of `INT_MAX`.
- Commands.ReadConfigText: holds only for non-empty keys free of blank,
  tab, NUL, `;`, `"` and line feed, and for overrides free of `"` and line
  feed. A key of `;` would split the bind alias. A `"` would end the quoted
  alias body or override early. A line feed would break the line
  structure. An empty or blank key leaves `bind  mah_blue_plus`, where the
  host takes the identifier for the key. A cleared field holds one NUL,
  and the host's reading of a NUL byte is not modelled. The program writes
  all of these unchecked, and a cleared field can reach the file through
  an ordinary Save (`Scenarios.ClearedKeySaved`).
- Apply.ApplyKeysTwice: says nothing about `binds.cfg`. Each apply sends
  `writeconfig` two or three times, and the host rewrites `binds.cfg`
  then. The host's bind table is not modelled, so the model does not show
  that repeating an apply leaves `binds.cfg` as one apply did.
- Apply.ApplyKeysState: its unchanged `bindsFile` means only that no
  plugin step writes the file. The rewrite by the host's `writeconfig` is
  not modelled. Its unchanged override cvars likewise mean only that no
  plugin step writes them. In the program the closing
  `exec matchadminhotkeys.cfg` runs the file's two override lines, which
  set both cvars from the file. After a successful write those are the
  values the cvars already held. After a failed write the old file runs,
  and the overrides revert to the values in that old file. The model does
  not interpret `exec`, so it does not show that revert.
- The Enable checkbox on the settings page writes `mah_enabled` through
  the host. The model takes the enable flag as an input to
  `Scores.AdjustScore` and does not model the checkbox.

=== FILE: apply.dfy ===
/** The side-effecting steps shared by Save and Reset to Defaults
    (MatchAdminHotkeys.cpp, `ScrubBindsCfgPhantoms`, `UnbindAllManagedKeys`,
    `PersistBinds`, the six cvar writes and `SaveCfg`), and the sequence in
    which the settings page runs them. */
module Apply {
  import opened Options
  import opened Text
  import opened Keys
  import opened Commands
  import opened Scrub
  import opened HostModel

  /** `PersistBinds`: asks the host to write its bindings out. */
  function PersistBinds(h: Host): (r: Host)
    ensures r.trace == h.trace + [Exec(WriteConfig)]
    ensures r.(trace := h.trace) == h
  {
    Execute(h, WriteConfig)
  }

  /** `UnbindAllManagedKeys`. */
  function UnbindAllManagedKeys(h: Host): (r: Host)
    ensures r.trace == h.trace + [Exec(UnbindAll)]
    ensures r.(trace := h.trace) == h
  {
    Execute(h, UnbindAll)
  }

  /** What the phantom scrub issues: nothing when no line matched (or the
      file could not be read), otherwise one unbind per matched line in file
      order followed by a request to persist. */
  function ScrubEvents(bindsFile: Option<string>): (r: seq<Event>)
    ensures r == [] <==> ScrubKeys(bindsFile) == []
    ensures r != [] ==> r == [Exec(UnbindKeys(ScrubKeys(bindsFile))), Exec(WriteConfig)]
  {
    var keys := ScrubKeys(bindsFile);
    if keys == [] then [] else [Exec(UnbindKeys(keys)), Exec(WriteConfig)]
  }

  /** `ScrubBindsCfgPhantoms`: reads the bind file and unbinds the keys of
      lines that still bind one of the six identifiers. It only issues
      commands; it never changes a cvar or a file itself. */
  function ScrubPhantoms(h: Host): (r: Host)
    ensures r.(trace := h.trace) == h
    ensures r.trace == h.trace + ScrubEvents(h.bindsFile)
    ensures ScrubKeys(h.bindsFile) == [] ==> r == h
  {
    var keys := ScrubKeys(h.bindsFile);
    if keys == [] then h else PersistBinds(Execute(h, UnbindKeys(keys)))
  }

  /** The cvar-write events of a run of (cvar, value) writes. */
  function SetEvents(writes: seq<(string, string)>): (r: seq<Event>)
    ensures |r| == |writes|
    ensures forall i :: 0 <= i < |writes| ==> r[i] == SetCvar(writes[i].0, writes[i].1)
  {
    seq(|writes|, i requires 0 <= i < |writes| => SetCvar(writes[i].0, writes[i].1))
  }

  /** Writes each (cvar, value) pair in turn. */
  function SetAll(h: Host, writes: seq<(string, string)>): (r: Host)
    ensures r.trace == h.trace + SetEvents(writes)
    ensures r.(cvars := h.cvars, trace := h.trace) == h
    decreases |writes|
  {
    if writes == [] then h
    else
      var h1 := SetCvarValue(h, writes[0].0, writes[0].1);
      var r := SetAll(h1, writes[1..]);
      SetEventsCons(writes);
      assert r.trace == h.trace + ([SetCvar(writes[0].0, writes[0].1)] + SetEvents(writes[1..]));
      r
  }

  lemma SetEventsCons(writes: seq<(string, string)>)
    requires writes != []
    ensures SetEvents(writes) == [SetCvar(writes[0].0, writes[0].1)] + SetEvents(writes[1..])
  {
    var a := SetEvents(writes);
    var b := [SetCvar(writes[0].0, writes[0].1)] + SetEvents(writes[1..]);
    forall i | 0 <= i < |a| ensures a[i] == b[i] {
      if i > 0 {
        assert writes[1..][i - 1] == writes[i];
      }
    }
  }

  /** A cvar no write names keeps its value. */
  lemma {:induction false} SetAllOther(h: Host, writes: seq<(string, string)>, n: string)
    requires forall j :: 0 <= j < |writes| ==> writes[j].0 != n
    ensures CvarValue(SetAll(h, writes), n) == CvarValue(h, n)
    decreases |writes|
  {
    if writes != [] {
      SetAllOther(SetCvarValue(h, writes[0].0, writes[0].1), writes[1..], n);
    }
  }

  /** A write that no later write overrides decides the cvar's value. */
  lemma {:induction false} SetAllValue(h: Host, writes: seq<(string, string)>, i: int)
    requires 0 <= i < |writes|
    requires forall j :: i < j < |writes| ==> writes[j].0 != writes[i].0
    ensures CvarValue(SetAll(h, writes), writes[i].0) == writes[i].1
    decreases |writes|
  {
    var h1 := SetCvarValue(h, writes[0].0, writes[0].1);
    if i == 0 {
      SetAllOther(h1, writes[1..], writes[0].0);
    } else {
      assert writes[1..][i - 1] == writes[i];
      SetAllValue(h1, writes[1..], i - 1);
    }
  }

  /** The six (key cvar, key) writes, in slot order. */
  function KeyWrites(w: Slots): seq<(string, string)> {
    seq(6, i requires 0 <= i < 6 => (KeyCvar(SlotOrder[i]), w.Get(SlotOrder[i])))
  }

  /** The six cvar writes, in slot order. */
  function KeyCvarEvents(w: Slots): (r: seq<Event>)
    ensures |r| == 6
    ensures forall i :: 0 <= i < 6 ==> r[i] == SetCvar(KeyCvar(SlotOrder[i]), w.Get(SlotOrder[i]))
  {
    SetEvents(KeyWrites(w))
  }

  /** Stores the six keys in their cvars, in slot order. */
  function StoreKeyCvars(h: Host, w: Slots): (r: Host)
    ensures r.trace == h.trace + KeyCvarEvents(w)
    ensures forall s :: CvarValue(r, KeyCvar(s)) == w.Get(s)
    ensures CvarValue(r, PauseCmdCvar) == CvarValue(h, PauseCmdCvar)
    ensures CvarValue(r, ResetCmdCvar) == CvarValue(h, ResetCmdCvar)
    ensures r.(cvars := h.cvars, trace := h.trace) == h
  {
    StoredKeyValues(h, w);
    SetAll(h, KeyWrites(w))
  }

  /** The cvar facts behind `StoreKeyCvars`'s contract: the key cvars are
      pairwise different and differ from the overrides. */
  lemma StoredKeyValues(h: Host, w: Slots)
    ensures forall s :: CvarValue(SetAll(h, KeyWrites(w)), KeyCvar(s)) == w.Get(s)
    ensures CvarValue(SetAll(h, KeyWrites(w)), PauseCmdCvar) == CvarValue(h, PauseCmdCvar)
    ensures CvarValue(SetAll(h, KeyWrites(w)), ResetCmdCvar) == CvarValue(h, ResetCmdCvar)
  {
    var ws := KeyWrites(w);
    forall s ensures CvarValue(SetAll(h, ws), KeyCvar(s)) == w.Get(s) {
      var i := Position(s);
      forall j | i < j < |ws| ensures ws[j].0 != ws[i].0 {
        SlotOrderDistinct(i, j);
        KeyCvarInjective(SlotOrder[j], s);
      }
      SetAllValue(h, ws, i);
    }
    forall j | 0 <= j < |ws| ensures ws[j].0 != PauseCmdCvar && ws[j].0 != ResetCmdCvar {
      KeyCvarNotOther(SlotOrder[j]);
    }
    SetAllOther(h, ws, PauseCmdCvar);
    SetAllOther(h, ws, ResetCmdCvar);
  }

  /** The configuration text for keys `w` and the host's current overrides. */
  function ConfigFor(h: Host, w: Slots): string {
    ConfigText(w, CvarValue(h, PauseCmdCvar), CvarValue(h, ResetCmdCvar))
  }

  /** What `SaveCfg` writes: the whole file when it opens, nothing otherwise. */
  function ConfigEvents(h: Host, w: Slots): (r: seq<Event>)
    ensures |r| <= 1
    ensures r != [] <==> h.configWritable
  {
    if h.configWritable then [WriteConfigFile(ConfigFor(h, w))] else []
  }

  /** `SaveCfg`: rewrites the configuration file in full from the keys and
      the two override cvars. When the file cannot be opened the call only
      logs; nothing changes and the caller is not told. */
  function SaveCfg(h: Host, w: Slots): (r: Host)
    ensures r.trace == h.trace + ConfigEvents(h, w)
    ensures r.configFile == if h.configWritable then Some(ConfigFor(h, w)) else h.configFile
    ensures r.(configFile := h.configFile, trace := h.trace) == h
  {
    if h.configWritable
    then h.(configFile := Some(ConfigFor(h, w)), trace := h.trace + [WriteConfigFile(ConfigFor(h, w))])
    else h
  }

  /** The opening of the apply sequence: scrub phantoms, unbind every
      managed key, persist. */
  function Prepare(h: Host): (r: Host)
    ensures r.trace == h.trace + ScrubEvents(h.bindsFile) + [Exec(UnbindAll), Exec(WriteConfig)]
    ensures r.(trace := h.trace) == h
  {
    PersistBinds(UnbindAllManagedKeys(ScrubPhantoms(h)))
  }

  /** The close of the apply sequence: unbind every managed key, re-run the
      configuration file so its alias installs the new binds, persist. */
  function Reload(h: Host): (r: Host)
    ensures r.trace == h.trace + [Exec(UnbindAll), Exec(ExecConfig), Exec(WriteConfig)]
    ensures r.(trace := h.trace) == h
  {
    PersistBinds(Execute(UnbindAllManagedKeys(h), ExecConfig))
  }

  /** The apply sequence shared by Save and Reset to Defaults. */
  function ApplyKeys(h: Host, w: Slots): Host {
    Reload(SaveCfg(StoreKeyCvars(Prepare(h), w), w))
  }

  /** The order of effects: scrub, unbind-all, persist, the six cvar writes,
      the configuration write, unbind-all again, re-run the configuration,
      persist again. */
  lemma ApplyKeysTrace(h: Host, w: Slots)
    ensures ApplyKeys(h, w).trace ==
      h.trace + ScrubEvents(h.bindsFile) + [Exec(UnbindAll), Exec(WriteConfig)]
      + KeyCvarEvents(w) + ConfigEvents(h, w)
      + [Exec(UnbindAll), Exec(ExecConfig), Exec(WriteConfig)]
  {
    var h3 := StoreKeyCvars(Prepare(h), w);
    SameOverrides(h3, h, w);
  }

  /** Storing the keys leaves the overrides, so the configuration text is
      the one the host's overrides give before the apply began. */
  lemma SameOverrides(h3: Host, h: Host, w: Slots)
    requires CvarValue(h3, PauseCmdCvar) == CvarValue(h, PauseCmdCvar)
    requires CvarValue(h3, ResetCmdCvar) == CvarValue(h, ResetCmdCvar)
    requires h3.configWritable == h.configWritable
    ensures ConfigFor(h3, w) == ConfigFor(h, w)
    ensures ConfigEvents(h3, w) == ConfigEvents(h, w)
  {
  }

  /** Afterwards every key cvar holds its slot's key, the overrides are
      unchanged, the configuration file holds the text for those keys and
      the overrides the host held before. The override clauses say that no
      plugin step writes the override cvars; the host's re-run of the
      configuration file, which sets them again from that file, is outside
      the model. No plugin step writes the bind file either; the host's own
      rewrite of it on `writeconfig` is outside the model. */
  lemma ApplyKeysState(h: Host, w: Slots)
    ensures forall s :: CvarValue(ApplyKeys(h, w), KeyCvar(s)) == w.Get(s)
    ensures CvarValue(ApplyKeys(h, w), PauseCmdCvar) == CvarValue(h, PauseCmdCvar)
    ensures CvarValue(ApplyKeys(h, w), ResetCmdCvar) == CvarValue(h, ResetCmdCvar)
    ensures ApplyKeys(h, w).configFile == if h.configWritable then Some(ConfigFor(h, w)) else h.configFile
    ensures ApplyKeys(h, w).bindsFile == h.bindsFile
    ensures ApplyKeys(h, w).configWritable == h.configWritable
  {
    var h3 := StoreKeyCvars(Prepare(h), w);
    SameOverrides(h3, h, w);
  }

  /** The written configuration file reads back as the applied keys and the
      host's overrides, whenever the file could be opened. */
  lemma ApplyKeysConfigReadsBack(h: Host, w: Slots)
    requires h.configWritable
    requires Writable(w, CvarValue(h, PauseCmdCvar), CvarValue(h, ResetCmdCvar))
    ensures ApplyKeys(h, w).configFile.Some?
    ensures ReadConfig(ApplyKeys(h, w).configFile.value)
         == Some(Config(w, CvarValue(h, PauseCmdCvar), CvarValue(h, ResetCmdCvar)))
  {
    ApplyKeysState(h, w);
    ReadConfigText(w, CvarValue(h, PauseCmdCvar), CvarValue(h, ResetCmdCvar));
  }

  /** Applying the same keys twice leaves the cvars and the configuration
      file as applying them once did; only the trace grows. The bind file is
      untouched because no plugin step writes it; the host's own rewrite of
      it on `writeconfig` is outside the model. */
  lemma ApplyKeysTwice(h: Host, w: Slots)
    ensures var once := ApplyKeys(h, w);
      var twice := ApplyKeys(once, w);
      && (forall s :: CvarValue(twice, KeyCvar(s)) == CvarValue(once, KeyCvar(s)))
      && CvarValue(twice, PauseCmdCvar) == CvarValue(once, PauseCmdCvar)
      && CvarValue(twice, ResetCmdCvar) == CvarValue(once, ResetCmdCvar)
      && twice.configFile == once.configFile
      && twice.bindsFile == once.bindsFile
  {
    var once := ApplyKeys(h, w);
    ApplyKeysState(h, w);
    ApplyKeysState(once, w);
    SameOverrides(once, h, w);
  }
}

=== FILE: commands.dfy ===
/** The command text the plugin sends to the host and the configuration file
    it writes (MatchAdminHotkeys.cpp, `UnbindAllManagedKeys`, `PersistBinds`
    and the text rendered by `SaveCfg`), together with a reader for that file
    that shows the file determines the settings it was written from. */
module Commands {
  import opened Options
  import opened Text
  import opened Keys

  /** The command that asks the host to persist its bindings. */
  const WriteConfigCommand: string := "writeconfig"

  /** The command that re-executes the plugin's own configuration file. */
  const ExecConfigCommand: string := "exec matchadminhotkeys.cfg"

  /** The cvars holding the two free-text override commands. */
  const PauseCmdCvar: string := "mah_pause_cmd"
  const ResetCmdCvar: string := "mah_reset_cmd"

  /** The cvar of the plugin's enable switch. */
  const EnabledCvar: string := "mah_enabled"

  /** No key cvar is an override cvar or the enable switch, so writing keys
      never touches them. */
  lemma KeyCvarNotOther(a: Slot)
    ensures KeyCvar(a) != PauseCmdCvar && KeyCvar(a) != ResetCmdCvar && KeyCvar(a) != EnabledCvar
  {
  }

  /** One `unbind <key>;` command per key, in order. */
  function UnbindList(keys: seq<string>): string {
    if keys == [] then "" else "unbind " + keys[0] + ";" + UnbindList(keys[1..])
  }

  lemma {:induction false} UnbindListAppend(a: seq<string>, b: seq<string>)
    ensures UnbindList(a + b) == UnbindList(a) + UnbindList(b)
  {
    if a != [] {
      assert (a + b)[1..] == a[1..] + b;
      UnbindListAppend(a[1..], b);
    } else {
      assert a + b == b;
    }
  }

  /** The `i`-th upper-case letter and its lower-case form, `c + 32`. */
  function Upper(i: nat): char
    requires i < 26
  {
    ('A' as int + i) as char
  }

  function Lower(i: nat): char
    requires i < 26
  {
    (Upper(i) as int + 32) as char
  }

  /** The letter loop of `UnbindAllManagedKeys`, from the `i`-th letter on. */
  function UnbindLettersFrom(i: nat): string
    requires i <= 26
    decreases 26 - i
  {
    if i == 26 then ""
    else "unbind " + [Upper(i)] + ";unbind " + [Lower(i)] + ";" + UnbindLettersFrom(i + 1)
  }

  /** The unbind-all command: every letter in upper and lower case, then the
      legacy `Slash` key. */
  function UnbindAllCommand(): string {
    UnbindLettersFrom(0) + "unbind Slash;"
  }

  /** The letter keys from the `i`-th letter on, in the order A, a, B, b, ... */
  function LetterKeysFrom(i: nat): (r: seq<string>)
    requires i <= 26
    ensures |r| == 2 * (26 - i)
    decreases 26 - i
  {
    if i == 26 then [] else [[Upper(i)], [Lower(i)]] + LetterKeysFrom(i + 1)
  }

  /** The keys the unbind-all command releases. */
  function ManagedKeys(): (r: seq<string>)
    ensures |r| == 53
    ensures r[52] == "Slash"
  {
    LetterKeysFrom(0) + ["Slash"]
  }

  lemma {:induction false} UnbindLettersFromIsUnbindList(i: nat)
    requires i <= 26
    ensures UnbindLettersFrom(i) == UnbindList(LetterKeysFrom(i))
    decreases 26 - i
  {
    if i < 26 {
      UnbindLettersFromIsUnbindList(i + 1);
      UnbindListAppend([[Upper(i)], [Lower(i)]], LetterKeysFrom(i + 1));
      assert UnbindList([[Upper(i)], [Lower(i)]]) == "unbind " + [Upper(i)] + ";unbind " + [Lower(i)] + ";";
    }
  }

  /** Positions `2k` and `2k+1` of the letter keys from `i` on hold the
      `(i+k)`-th letter in upper and lower case. */
  lemma {:induction false} LetterKeysFromAt(i: nat, k: nat)
    requires i + k < 26
    ensures LetterKeysFrom(i)[2 * k] == [Upper(i + k)]
    ensures LetterKeysFrom(i)[2 * k + 1] == [Lower(i + k)]
    decreases k
  {
    if k > 0 {
      LetterKeysFromAt(i + 1, k - 1);
    }
  }

  /** The unbind-all command is exactly one `unbind` per managed key: 53 of
      them, the 26 letters in both cases and `Slash` last. */
  lemma UnbindAllIsUnbindList()
    ensures UnbindAllCommand() == UnbindList(ManagedKeys())
  {
    LetterLoopIsUnbindList();
    ManagedKeysUnbindList();
  }

  lemma LetterLoopIsUnbindList()
    ensures UnbindLettersFrom(0) == UnbindList(LetterKeysFrom(0))
  {
    UnbindLettersFromIsUnbindList(0);
  }

  lemma ManagedKeysUnbindList()
    ensures UnbindList(ManagedKeys()) == UnbindList(LetterKeysFrom(0)) + "unbind Slash;"
  {
    UnbindListAppend(LetterKeysFrom(0), ["Slash"]);
    UnbindSlash();
  }

  lemma UnbindSlash()
    ensures UnbindList(["Slash"]) == "unbind Slash;"
  {
    assert ["Slash"][1..] == [];
  }

  /** Every letter, in either case, is among the keys the unbind-all releases,
      so a single-letter key bound by the plugin is always cleared first. */
  lemma ManagedKeysCoverLetters(c: char)
    requires IsUpperAscii(c) || IsLowerAscii(c)
    ensures [c] in ManagedKeys()
  {
    var ks := ManagedKeys();
    if IsUpperAscii(c) {
      var i := c as int - 'A' as int;
      LetterKeysFromAt(0, i);
      assert ks[2 * i] == [Upper(i)] == [c];
    } else {
      var i := c as int - 'a' as int;
      LetterKeysFromAt(0, i);
      assert ks[2 * i + 1] == [Lower(i)] == [c];
    }
  }

  lemma {:induction false} UnbindLettersFromOneLine(i: nat)
    requires i <= 26
    ensures '\n' !in UnbindLettersFrom(i)
    decreases 26 - i
  {
    if i < 26 {
      UnbindLettersFromOneLine(i + 1);
    }
  }

  /** The unbind-all text contains no line feed, so it fits on one line. */
  lemma UnbindAllOneLine()
    ensures '\n' !in UnbindAllCommand()
  {
    UnbindLettersFromOneLine(0);
    SlashOneLine();
  }

  lemma SlashOneLine()
    ensures '\n' !in "unbind Slash;"
  {
    var t := "unbind Slash;";
    forall k | 0 <= k < |t| ensures t[k] != '\n' {
    }
  }

  /** `bind <key> <identifier>` for one slot. */
  function BindCommand(w: Slots, s: Slot): string {
    "bind " + w.Get(s) + " " + ActionId(s)
  }

  /** The six bind commands in slot order. */
  function BindCommands(w: Slots): (r: seq<string>)
    ensures |r| == 6
    ensures forall i :: 0 <= i < 6 ==> r[i] == BindCommand(w, SlotOrder[i])
  {
    seq(6, i requires 0 <= i < 6 => BindCommand(w, SlotOrder[i]))
  }

  /** The body of the bind alias: unbind-all first, then the six binds,
      separated by semicolons. */
  function BindAliasBody(w: Slots): string {
    Join(["mah_unbind_all"] + BindCommands(w), ';')
  }

  function UnbindAliasLine(): string {
    "alias mah_unbind_all \"" + UnbindAllCommand() + "\""
  }

  function BindAliasLine(w: Slots): string {
    "alias mah_bind_letters \"" + BindAliasBody(w) + "\""
  }

  const InvocationLine: string := "mah_bind_letters"

  /** `<cvar> "<value>"`: an override written inside double quotes. */
  function OverrideLine(cvar: string, value: string): string {
    cvar + " \"" + value + "\""
  }

  /** The five comment lines and the blank line that open the file. */
  const HeaderText: string :=
    "// MatchAdminHotkeys configuration\n"
    + "// Single-letter keys only.\n"
    + "// To change keys: edit the letters below or use the plugin's settings UI, then Save.\n"
    + "// The unbind section clears A-Z (upper/lower) and legacy keys to prevent duplicates.\n"
    + "// It's best to avoid binding keys already assigned to actions in Rocket League's control settings.\n"
    + "\n"

  /** The lines after the header, in the order they are written: the
      unbind-all alias, the bind alias, its invocation and the two overrides. */
  function BodyLines(w: Slots, pauseCmd: string, resetCmd: string): (r: seq<string>)
    ensures |r| == 5
  {
    [UnbindAliasLine(), BindAliasLine(w), InvocationLine,
     OverrideLine(PauseCmdCvar, pauseCmd), OverrideLine(ResetCmdCvar, resetCmd)]
  }

  /** The full text of the configuration file. */
  function ConfigText(w: Slots, pauseCmd: string, resetCmd: string): string {
    HeaderText + JoinLines(BodyLines(w, pauseCmd, resetCmd))
  }

  /** What a configuration file says: the six keys and the two overrides. */
  datatype Config = Config(keys: Slots, pauseCmd: string, resetCmd: string)

  /** A key the host reads back as one word of `bind <key> <identifier>`:
      not empty, and holding no blank, tab or NUL. An empty or blank key
      leaves `bind  <identifier>`, where the identifier is read as the key. */
  predicate HostKey(k: string) {
    k != [] && ' ' !in k && '\t' !in k && NUL !in k
  }

  /** The key of a `bind <key> <identifier>` segment for the given slot,
      when the host would read it as that key. */
  function ReadBind(segment: string, s: Slot): (r: Option<string>)
    ensures r.Some? ==> segment == "bind " + r.value + " " + ActionId(s)
    ensures r.Some? ==> HostKey(r.value)
  {
    var suffix := " " + ActionId(s);
    var k := StripAround(segment, "bind ", suffix);
    assert k.Some? ==> segment == "bind " + k.value + suffix;
    if k.Some? && HostKey(k.value) then k else None
  }

  /** The keys of six bind segments taken in slot order. */
  function ReadBinds(segs: seq<string>): (r: Option<Slots>)
    requires |segs| == 6
    ensures r.Some? ==> forall s :: segs[Position(s)] == BindCommand(r.value, s)
    ensures r.Some? ==> forall s :: HostKey(r.value.Get(s))
  {
    var b0 := ReadBind(segs[0], BluePlus);
    var b1 := ReadBind(segs[1], BlueMinus);
    var b2 := ReadBind(segs[2], OrangePlus);
    var b3 := ReadBind(segs[3], OrangeMinus);
    var b4 := ReadBind(segs[4], Pause);
    var b5 := ReadBind(segs[5], Reset);
    if b0.Some? && b1.Some? && b2.Some? && b3.Some? && b4.Some? && b5.Some?
    then Some(Slots(b0.value, b1.value, b2.value, b3.value, b4.value, b5.value))
    else None
  }

  /** The keys of a bind alias line, when it has the expected shape. */
  function ReadBindAlias(line: string): (r: Option<Slots>)
    ensures r.Some? ==> forall s :: HostKey(r.value.Get(s))
  {
    match StripAround(line, "alias mah_bind_letters \"", "\"")
    case None => None
    case Some(body) =>
      var segs := SplitOn(body, ';');
      if '"' in body then None
      else if |segs| == 7 && segs[0] == "mah_unbind_all" then ReadBinds(segs[1..])
      else None
  }

  /** Reads back a configuration file in the layout `ConfigText` writes:
      the fixed header, the unbind-all alias, the bind alias, the invocation
      and the two quoted overrides. */
  function ReadConfig(text: string): (r: Option<Config>)
    ensures r.Some? ==> forall s :: HostKey(r.value.keys.Get(s))
  {
    match StripAround(text, HeaderText, "")
    case None => None
    case Some(body) =>
      var ls := Lines(body);
      if |ls| != 5 || ls[0] != UnbindAliasLine() || ls[2] != InvocationLine then None
      else
        match (ReadBindAlias(ls[1]),
               StripAround(ls[3], PauseCmdCvar + " \"", "\""),
               StripAround(ls[4], ResetCmdCvar + " \"", "\""))
        case (Some(w), Some(p), Some(r)) =>
          if '"' in p || '"' in r then None else Some(Config(w, p, r))
        case _ => None
  }

  /** Settings the configuration file can carry: every key is one the host
      reads back as a word and contains no bind separator, double quote or
      line feed, and no override contains a double quote or a line feed. A
      double quote would close the quoted alias body or override early when
      the host reads the file. */
  predicate Writable(w: Slots, pauseCmd: string, resetCmd: string) {
    && (forall s :: HostKey(w.Get(s)) && ';' !in w.Get(s) && '"' !in w.Get(s) && '\n' !in w.Get(s))
    && '"' !in pauseCmd && '\n' !in pauseCmd
    && '"' !in resetCmd && '\n' !in resetCmd
  }

  lemma ReadBindCommand(w: Slots, s: Slot)
    requires HostKey(w.Get(s))
    ensures ReadBind(BindCommand(w, s), s) == Some(w.Get(s))
  {
    var suffix := " " + ActionId(s);
    assert BindCommand(w, s) == "bind " + w.Get(s) + suffix;
    StripAroundWrapped("bind ", w.Get(s), suffix);
  }

  lemma ReadBindCommands(w: Slots)
    requires forall s :: HostKey(w.Get(s))
    ensures ReadBinds(BindCommands(w)) == Some(w)
  {
    var segs := BindCommands(w);
    ReadBindCommand(w, BluePlus);
    ReadBindCommand(w, BlueMinus);
    ReadBindCommand(w, OrangePlus);
    ReadBindCommand(w, OrangeMinus);
    ReadBindCommand(w, Pause);
    ReadBindCommand(w, Reset);
    assert segs[0] == BindCommand(w, BluePlus);
    assert segs[1] == BindCommand(w, BlueMinus);
    assert segs[2] == BindCommand(w, OrangePlus);
    assert segs[3] == BindCommand(w, OrangeMinus);
    assert segs[4] == BindCommand(w, Pause);
    assert segs[5] == BindCommand(w, Reset);
  }

  /** The bind segments of the alias body: unbind-all, then the six binds. */
  function AliasParts(w: Slots): (r: seq<string>)
    ensures |r| == 7
  {
    ["mah_unbind_all"] + BindCommands(w)
  }

  lemma AliasPartsAvoid(w: Slots, c: char)
    requires c == ';' || c == '\n' || c == '"'
    requires forall s :: c !in w.Get(s)
    ensures forall i :: 0 <= i < 7 ==> c !in AliasParts(w)[i]
  {
    var parts := AliasParts(w);
    AliasLiteralsAvoid(c);
    forall i | 1 <= i < 7 ensures c !in parts[i] {
      var s := SlotOrder[i - 1];
      assert parts[i] == "bind " + w.Get(s) + " " + ActionId(s);
    }
  }

  /** The fixed text of the alias body holds no separator, line feed or
      double quote. */
  lemma AliasLiteralsAvoid(c: char)
    requires c == ';' || c == '\n' || c == '"'
    ensures c !in "mah_unbind_all" && c !in "bind " && c !in " "
    ensures forall s :: c !in ActionId(s)
  {
    forall s ensures c !in ActionId(s) {
      var id := ActionId(s);
      forall k | 0 <= k < |id| ensures id[k] != c {
      }
    }
  }

  lemma ReadBindAliasLine(w: Slots)
    requires forall s :: HostKey(w.Get(s)) && ';' !in w.Get(s) && '"' !in w.Get(s)
    ensures ReadBindAlias(BindAliasLine(w)) == Some(w)
  {
    var parts := AliasParts(w);
    StripAroundWrapped("alias mah_bind_letters \"", BindAliasBody(w), "\"");
    AliasPartsAvoid(w, '"');
    JoinAvoids(parts, ';', '"');
    AliasPartsAvoid(w, ';');
    SplitOnJoin(parts, ';');
    assert parts[1..] == BindCommands(w);
    ReadBindCommands(w);
  }

  lemma BindAliasOneLine(w: Slots)
    requires forall s :: '\n' !in w.Get(s)
    ensures '\n' !in BindAliasLine(w)
  {
    AliasPartsAvoid(w, '\n');
    JoinAvoids(AliasParts(w), ';', '\n');
  }

  /** Round trip: reading the written configuration file gives back the keys
      and the two overrides it was written from. */
  lemma ReadConfigText(w: Slots, pauseCmd: string, resetCmd: string)
    requires Writable(w, pauseCmd, resetCmd)
    ensures ReadConfig(ConfigText(w, pauseCmd, resetCmd)) == Some(Config(w, pauseCmd, resetCmd))
  {
    var ls := BodyLines(w, pauseCmd, resetCmd);
    StripAroundWrapped(HeaderText, JoinLines(ls), "");
    assert HeaderText + JoinLines(ls) + "" == ConfigText(w, pauseCmd, resetCmd);
    BodyLinesOneLine(w, pauseCmd, resetCmd);
    LinesOfJoinLines(ls);
    ReadBodyLines(w, pauseCmd, resetCmd);
  }

  /** The converse side: a file written with a key the host would not read
      as that key (an empty or cleared field, or one holding a blank, tab or
      NUL) never reads back as the settings it was written from. */
  lemma UnreadableKeyNotReadBack(w: Slots, pauseCmd: string, resetCmd: string, s: Slot)
    requires !HostKey(w.Get(s))
    ensures ReadConfig(ConfigText(w, pauseCmd, resetCmd)) != Some(Config(w, pauseCmd, resetCmd))
  {
  }

  lemma ReadBodyLines(w: Slots, pauseCmd: string, resetCmd: string)
    requires forall s :: HostKey(w.Get(s)) && ';' !in w.Get(s) && '"' !in w.Get(s)
    ensures ReadBindAlias(BodyLines(w, pauseCmd, resetCmd)[1]) == Some(w)
    ensures StripAround(BodyLines(w, pauseCmd, resetCmd)[3], PauseCmdCvar + " \"", "\"") == Some(pauseCmd)
    ensures StripAround(BodyLines(w, pauseCmd, resetCmd)[4], ResetCmdCvar + " \"", "\"") == Some(resetCmd)
  {
    ReadBindAliasLine(w);
    StripAroundWrapped(PauseCmdCvar + " \"", pauseCmd, "\"");
    StripAroundWrapped(ResetCmdCvar + " \"", resetCmd, "\"");
  }

  lemma BodyLinesOneLine(w: Slots, pauseCmd: string, resetCmd: string)
    requires Writable(w, pauseCmd, resetCmd)
    ensures forall i :: 0 <= i < 5 ==> '\n' !in BodyLines(w, pauseCmd, resetCmd)[i]
  {
    var ls := BodyLines(w, pauseCmd, resetCmd);
    UnbindAliasOneLine();
    BindAliasOneLine(w);
    OverrideCvarsOneLine();
    OverrideLineOneLine(PauseCmdCvar, pauseCmd);
    OverrideLineOneLine(ResetCmdCvar, resetCmd);
    forall i | 0 <= i < 5 ensures '\n' !in ls[i] {
      if i == 0 { assert ls[0] == UnbindAliasLine(); }
      else if i == 1 { assert ls[1] == BindAliasLine(w); }
      else if i == 2 { assert ls[2] == InvocationLine; }
      else if i == 3 { assert ls[3] == OverrideLine(PauseCmdCvar, pauseCmd); }
      else { assert ls[4] == OverrideLine(ResetCmdCvar, resetCmd); }
    }
  }

  lemma UnbindAliasOneLine()
    ensures '\n' !in UnbindAliasLine()
  {
    UnbindAllOneLine();
    var pre := "alias mah_unbind_all \"";
    forall k | 0 <= k < |pre| ensures pre[k] != '\n' {
    }
    assert UnbindAliasLine() == pre + UnbindAllCommand() + "\"";
  }

  lemma OverrideCvarsOneLine()
    ensures '\n' !in PauseCmdCvar && '\n' !in ResetCmdCvar && '\n' !in InvocationLine
  {
  }

  lemma OverrideLineOneLine(cvar: string, value: string)
    requires '\n' !in cvar && '\n' !in value
    ensures '\n' !in OverrideLine(cvar, value)
  {
  }

  /** A character absent from the parts and different from the separator is
      absent from their join. */
  lemma {:induction false} JoinAvoids(parts: seq<string>, d: char, c: char)
    requires |parts| >= 1 && c != d
    requires forall i :: 0 <= i < |parts| ==> c !in parts[i]
    ensures c !in Join(parts, d)
  {
    if |parts| > 1 {
      JoinAvoids(parts[1..], d, c);
    }
  }
}

=== FILE: controller.dfy ===
/** The settings page's state machine (MatchAdminHotkeys.cpp, `onLoad`,
    `LoadKeyCvarsToUi`, `IsDirtyNow`, `IsAtDefaultsSaved`,
    `SnapshotLastSaved` and `RenderSettings`). One call of `Frame` is one
    rendering of the page: the six fields take the user's edits, the page
    derives dirty / at-defaults / duplicate, raises the unsaved-changes
    notice once, and runs the branch of at most one clicked button. */
module Controller {
  import opened Options
  import opened Text
  import opened Keys
  import opened Commands
  import opened HostModel
  import opened Apply

  /** The page's state: the keys being edited, the keys last applied, and
      whether the unsaved-changes notice has already been raised. */
  datatype Form = Form(working: Slots, snapshot: Slots, toastShown: bool)

  /** The page together with the host it drives. */
  datatype Session = Session(form: Form, host: Host)

  /** Some slot differs from the last applied keys. */
  function IsDirty(f: Form): (dirty: bool)
    ensures dirty <==> f.working != f.snapshot
  {
    var w := f.working;
    var s := f.snapshot;
    var d := w.bluePlus != s.bluePlus || w.blueMinus != s.blueMinus
      || w.orangePlus != s.orangePlus || w.orangeMinus != s.orangeMinus
      || w.pause != s.pause || w.reset != s.reset;
    if !d then SlotsExtensional(w, s); d else d
  }

  /** The last applied keys are the defaults U, J, I, K, P, O. */
  function IsAtDefaultsSaved(f: Form): (atDefaults: bool)
    ensures atDefaults <==> f.snapshot == Defaults
  {
    var s := f.snapshot;
    s.bluePlus == "U" && s.blueMinus == "J" && s.orangePlus == "I"
      && s.orangeMinus == "K" && s.pause == "P" && s.reset == "O"
  }

  /** Commits the edited keys as the last applied ones and re-arms the
      unsaved-changes notice. */
  function SnapshotLastSaved(f: Form): (r: Form)
    ensures r.working == f.working && r.snapshot == f.working
    ensures !IsDirty(r) && !r.toastShown
  {
    f.(snapshot := f.working, toastShown := false)
  }

  /** One key field drawn for one frame. `edit` is the character the user
      typed this frame, NUL when the field was cleared; `None` when the field
      was not edited. An edit leaves exactly that character, upper-cased; an
      untouched field keeps its value unless it holds more than one
      character, in which case it is cut to its normalised first one. */
  function DrawCharField(val: string, edit: Option<char>): (r: string)
    ensures |r| <= 1
    ensures edit.Some? ==> r == [ToUpperAscii(edit.value)] && Normalized(r)
    ensures edit.None? ==> r == if |val| <= 1 then val else NormalizeKey(val)
    ensures Normalized(val) ==> Normalized(r)
  {
    var v := if edit.Some? then NormalizeKey([edit.value]) else val;
    if |v| > 1 then NormalizeKey(v[..1]) else v
  }

  /** The edit for slot `s` this frame, if any. */
  function EditOf(edits: map<Slot, char>, s: Slot): Option<char> {
    if s in edits then Some(edits[s]) else None
  }

  /** The six fields drawn in page order. */
  function ApplyEdits(w: Slots, edits: map<Slot, char>): (r: Slots)
    ensures forall s :: r.Get(s) == DrawCharField(w.Get(s), EditOf(edits, s))
  {
    var r := Slots(DrawCharField(w.bluePlus, EditOf(edits, BluePlus)),
                   DrawCharField(w.blueMinus, EditOf(edits, BlueMinus)),
                   DrawCharField(w.orangePlus, EditOf(edits, OrangePlus)),
                   DrawCharField(w.orangeMinus, EditOf(edits, OrangeMinus)),
                   DrawCharField(w.pause, EditOf(edits, Pause)),
                   DrawCharField(w.reset, EditOf(edits, Reset)));
    DrawnFields(w, edits, r);
    r
  }

  /** The slot-by-slot facts behind `ApplyEdits`'s contract. */
  lemma DrawnFields(w: Slots, edits: map<Slot, char>, r: Slots)
    requires r == Slots(DrawCharField(w.bluePlus, EditOf(edits, BluePlus)),
                        DrawCharField(w.blueMinus, EditOf(edits, BlueMinus)),
                        DrawCharField(w.orangePlus, EditOf(edits, OrangePlus)),
                        DrawCharField(w.orangeMinus, EditOf(edits, OrangeMinus)),
                        DrawCharField(w.pause, EditOf(edits, Pause)),
                        DrawCharField(w.reset, EditOf(edits, Reset)))
    ensures forall s :: r.Get(s) == DrawCharField(w.Get(s), EditOf(edits, s))
  {
    forall s ensures r.Get(s) == DrawCharField(w.Get(s), EditOf(edits, s)) {
      match s
      case BluePlus =>
      case BlueMinus =>
      case OrangePlus =>
      case OrangeMinus =>
      case Pause =>
      case Reset =>
    }
  }

  /** An edited slot holds the typed character upper-cased; an untouched
      slot of at most one character is left alone; normalised fields stay
      normalised. */
  lemma ApplyEditsEffect(w: Slots, edits: map<Slot, char>)
    ensures forall s :: s in edits ==> ApplyEdits(w, edits).Get(s) == [ToUpperAscii(edits[s])]
    ensures forall s :: s !in edits && |w.Get(s)| <= 1 ==> ApplyEdits(w, edits).Get(s) == w.Get(s)
    ensures AllNormalized(w) ==> AllNormalized(ApplyEdits(w, edits))
  {
    var r := ApplyEdits(w, edits);
    forall s ensures r.Get(s) == DrawCharField(w.Get(s), EditOf(edits, s)) {
    }
  }

  /** The button clicked this frame, if any. */
  datatype Button = NoButton | SaveButton | RevertButton | ResetButton

  /** The Save branch: normalise every slot, check for duplicates again and
      stop if one appears; otherwise apply the keys and commit them. The
      commit happens whether or not the configuration file could be written. */
  function SaveBranch(s: Session): (r: Session)
    ensures r.form.working == NormalizeAll(s.form.working)
    ensures Duplicate(NormalizeAll(s.form.working)).Some? ==>
      r.host == s.host && r.form.snapshot == s.form.snapshot && r.form.toastShown == s.form.toastShown
    ensures Duplicate(NormalizeAll(s.form.working)).None? ==>
      && r.form.snapshot == NormalizeAll(s.form.working) && !IsDirty(r.form) && !r.form.toastShown
      && r.host == ApplyKeys(s.host, NormalizeAll(s.form.working))
  {
    var w := NormalizeAll(s.form.working);
    var f := s.form.(working := w);
    if Duplicate(w).Some? then Session(f, s.host)
    else Session(SnapshotLastSaved(f), ApplyKeys(s.host, w))
  }

  /** The Revert branch: the fields go back to the last applied keys. */
  function RevertBranch(f: Form): (r: Form)
    ensures r.working == f.snapshot && r.snapshot == f.snapshot
    ensures !IsDirty(r) && !r.toastShown
  {
    f.(working := f.snapshot, toastShown := false)
  }

  /** The Reset to Defaults branch: the fields become the defaults, which are
      applied and committed without a duplicate check. */
  function ResetBranch(s: Session): (r: Session)
    ensures r.form.working == Defaults && r.form.snapshot == Defaults
    ensures IsAtDefaultsSaved(r.form) && !IsDirty(r.form) && !r.form.toastShown
    ensures r.host == ApplyKeys(s.host, Defaults)
  {
    Session(SnapshotLastSaved(s.form.(working := Defaults)), ApplyKeys(s.host, Defaults))
  }

  /** The form after this frame's edits, before any button acts. */
  function Edited(f: Form, edits: map<Slot, char>): Form {
    f.(working := ApplyEdits(f.working, edits))
  }

  /** The form once the unsaved-changes notice has been raised if needed. */
  function Noticed(f: Form): (r: Form)
    ensures r.working == f.working && r.snapshot == f.snapshot
    ensures r.toastShown <==> f.toastShown || IsDirty(f)
  {
    if IsDirty(f) && !f.toastShown then f.(toastShown := true) else f
  }

  /** Save is offered when there are unsaved edits and no duplicate. */
  predicate SaveEnabled(f: Form) {
    IsDirty(f) && Duplicate(f.working).None?
  }

  /** One rendering of the settings page. The three buttons are gated as the
      page gates them: Save needs unsaved edits and no duplicate, Revert
      needs unsaved edits, Reset needs last applied keys other than the
      defaults. A disabled button's click does nothing. */
  function Frame(s: Session, edits: map<Slot, char>, button: Button): (r: Session)
    ensures button == NoButton ==> r.host == s.host
    ensures IsDirty(r.form) ==> r.form.toastShown
  {
    var f1 := Edited(s.form, edits);
    var dirty := IsDirty(f1);
    var atDefaults := IsAtDefaultsSaved(f1);
    var hasDup := Duplicate(f1.working).Some?;
    var f2 := Noticed(f1);
    if button == SaveButton && dirty && !hasDup then SaveBranch(Session(f2, s.host))
    else if button == RevertButton && dirty then Session(RevertBranch(f2), s.host)
    else if button == ResetButton && !atDefaults then ResetBranch(Session(f2, s.host))
    else Session(f2, s.host)
  }

  /** The six key cvars as the host holds them. */
  function StoredKeys(h: Host): (r: Slots)
    ensures forall s :: r.Get(s) == CvarValue(h, KeyCvar(s))
  {
    Slots(CvarValue(h, KeyCvar(BluePlus)), CvarValue(h, KeyCvar(BlueMinus)),
          CvarValue(h, KeyCvar(OrangePlus)), CvarValue(h, KeyCvar(OrangeMinus)),
          CvarValue(h, KeyCvar(Pause)), CvarValue(h, KeyCvar(Reset)))
  }

  /** Registers each (name, default) pair in turn. */
  function RegisterAll(h: Host, regs: seq<(string, string)>): (r: Host)
    ensures forall n :: n in h.cvars ==> n in r.cvars
    ensures forall j :: 0 <= j < |regs| ==> regs[j].0 in r.cvars
    ensures r.(cvars := h.cvars) == h
    decreases |regs|
  {
    if regs == [] then h else RegisterAll(RegisterCvar(h, regs[0].0, regs[0].1), regs[1..])
  }

  /** A registration whose name is registered only once yields the value the
      cvar already held, or else its default. */
  lemma {:induction false} RegisterAllValue(h: Host, regs: seq<(string, string)>, i: int)
    requires 0 <= i < |regs|
    requires forall j :: 0 <= j < |regs| && j != i ==> regs[j].0 != regs[i].0
    ensures CvarValue(RegisterAll(h, regs), regs[i].0) ==
      if regs[i].0 in h.cvars then h.cvars[regs[i].0] else regs[i].1
    decreases |regs|
  {
    var h1 := RegisterCvar(h, regs[0].0, regs[0].1);
    if i == 0 {
      RegisterAllOther(h1, regs[1..], regs[0].0);
    } else {
      assert regs[1..][i - 1] == regs[i];
      RegisterAllValue(h1, regs[1..], i - 1);
    }
  }

  /** A cvar no registration names is left alone. */
  lemma {:induction false} RegisterAllOther(h: Host, regs: seq<(string, string)>, n: string)
    requires forall j :: 0 <= j < |regs| ==> regs[j].0 != n
    ensures CvarValue(RegisterAll(h, regs), n) == CvarValue(h, n)
    decreases |regs|
  {
    if regs != [] {
      RegisterAllOther(RegisterCvar(h, regs[0].0, regs[0].1), regs[1..], n);
    }
  }

  /** The key cvars with their defaults, in the order the plugin registers
      them (blue plus, orange plus, blue minus, orange minus, pause, reset). */
  const KeyRegistrations: seq<(string, string)> := [
    (KeyCvar(BluePlus), "U"), (KeyCvar(OrangePlus), "I"), (KeyCvar(BlueMinus), "J"),
    (KeyCvar(OrangeMinus), "K"), (KeyCvar(Pause), "P"), (KeyCvar(Reset), "O")]

  /** Where a slot's registration sits in `KeyRegistrations`. */
  function RegistrationIndex(s: Slot): (i: nat)
    ensures i < |KeyRegistrations| && KeyRegistrations[i] == (KeyCvar(s), Defaults.Get(s))
  {
    match s
    case BluePlus => 0
    case OrangePlus => 1
    case BlueMinus => 2
    case OrangeMinus => 3
    case Pause => 4
    case Reset => 5
  }

  /** Every registration names a key cvar. */
  lemma RegistrationSlot(j: int)
    requires 0 <= j < |KeyRegistrations|
    ensures exists t :: KeyRegistrations[j].0 == KeyCvar(t) && RegistrationIndex(t) == j
  {
    var t := [BluePlus, OrangePlus, BlueMinus, OrangeMinus, Pause, Reset][j];
    assert KeyRegistrations[j].0 == KeyCvar(t) && RegistrationIndex(t) == j;
  }

  /** Registers the six key cvars with their defaults. */
  function RegisterKeyCvars(h: Host): (r: Host)
    ensures forall s :: KeyCvar(s) in r.cvars
    ensures r.(cvars := h.cvars) == h
  {
    var r := RegisterAll(h, KeyRegistrations);
    forall s ensures KeyCvar(s) in r.cvars {
      assert KeyRegistrations[RegistrationIndex(s)].0 == KeyCvar(s);
    }
    r
  }

  /** A key cvar that already held a value keeps it; a new one starts at its
      slot's default. */
  lemma RegisterKeyCvarsValues(h: Host)
    ensures forall s :: (CvarValue(RegisterKeyCvars(h), KeyCvar(s)) ==
      if KeyCvar(s) in h.cvars then h.cvars[KeyCvar(s)] else Defaults.Get(s))
  {
    forall s ensures CvarValue(RegisterKeyCvars(h), KeyCvar(s)) ==
      (if KeyCvar(s) in h.cvars then h.cvars[KeyCvar(s)] else Defaults.Get(s))
    {
      var i := RegistrationIndex(s);
      forall j | 0 <= j < |KeyRegistrations| && j != i
        ensures KeyRegistrations[j].0 != KeyRegistrations[i].0
      {
        RegistrationSlot(j);
        var t :| KeyRegistrations[j].0 == KeyCvar(t) && RegistrationIndex(t) == j;
        KeyCvarInjective(t, s);
      }
      RegisterAllValue(h, KeyRegistrations, i);
    }
  }

  /** Registering the key cvars leaves the override cvars alone. */
  lemma RegisterKeyCvarsKeepsOverrides(h: Host)
    ensures CvarValue(RegisterKeyCvars(h), PauseCmdCvar) == CvarValue(h, PauseCmdCvar)
    ensures CvarValue(RegisterKeyCvars(h), ResetCmdCvar) == CvarValue(h, ResetCmdCvar)
  {
    forall j | 0 <= j < |KeyRegistrations|
      ensures KeyRegistrations[j].0 != PauseCmdCvar && KeyRegistrations[j].0 != ResetCmdCvar
    {
      RegistrationSlot(j);
      var t :| KeyRegistrations[j].0 == KeyCvar(t) && RegistrationIndex(t) == j;
      KeyCvarNotOther(t);
    }
    RegisterAllOther(h, KeyRegistrations, PauseCmdCvar);
    RegisterAllOther(h, KeyRegistrations, ResetCmdCvar);
  }

  /** The state before the plugin loads: empty fields and snapshot, notice
      not raised. */
  const Blank: Slots := Slots("", "", "", "", "", "")

  /** The host side of plugin load: register the key cvars, run the
      plugin's configuration file, then register the two override cvars and
      the enable switch. */
  function LoadHost(h: Host): (r: Host)
    ensures r.trace == h.trace + [Exec(ExecConfig)]
    ensures forall s :: CvarValue(r, KeyCvar(s)) == CvarValue(RegisterKeyCvars(h), KeyCvar(s))
    ensures r.configFile == h.configFile && r.bindsFile == h.bindsFile
  {
    var h1 := Execute(RegisterKeyCvars(h), ExecConfig);
    forall s ensures KeyCvar(s) != PauseCmdCvar && KeyCvar(s) != ResetCmdCvar && KeyCvar(s) != EnabledCvar {
      KeyCvarNotOther(s);
    }
    RegisterCvar(RegisterCvar(RegisterCvar(h1, PauseCmdCvar, ""), ResetCmdCvar, ""), EnabledCvar, "1")
  }

  /** `LoadKeyCvarsToUi` followed by `SnapshotLastSaved`: the fields take the
      normalised key cvars and become the last applied keys. */
  function LoadForm(h: Host): (r: Form)
    ensures forall s :: r.working.Get(s) == NormalizeKey(CvarValue(h, KeyCvar(s)))
    ensures !IsDirty(r) && !r.toastShown
    ensures AllNormalized(r.working)
  {
    SnapshotLastSaved(Form(NormalizeAll(StoredKeys(h)), Blank, false))
  }

  /** Plugin load. The page starts clean and normalised, and the only
      command sent is running the configuration file. */
  function OnLoad(h: Host): (r: Session)
    ensures !IsDirty(r.form) && !r.form.toastShown && AllNormalized(r.form.working)
    ensures r.host.trace == h.trace + [Exec(ExecConfig)]
  {
    var h1 := LoadHost(h);
    Session(LoadForm(h1), h1)
  }

  /** After load the page is clean, every field is normalised, and each field
      holds the normalised key its cvar held before load, or its default when
      the cvar did not exist yet. Load issues exactly one command: running the
      configuration file. */
  lemma OnLoadState(h: Host)
    ensures var r := OnLoad(h);
      && !IsDirty(r.form) && !r.form.toastShown && AllNormalized(r.form.working)
      && r.host.trace == h.trace + [Exec(ExecConfig)]
      && (forall s :: r.form.working.Get(s) ==
           NormalizeKey(if KeyCvar(s) in h.cvars then h.cvars[KeyCvar(s)] else Defaults.Get(s)))
  {
    RegisterKeyCvarsValues(h);
  }

  /** With no key cvars stored, load yields the defaults and the page reports
      them as the saved state. */
  lemma OnLoadFresh(h: Host)
    requires forall s :: KeyCvar(s) !in h.cvars
    ensures OnLoad(h).form.working == Defaults
    ensures IsAtDefaultsSaved(OnLoad(h).form)
  {
    var w := OnLoad(h).form.working;
    OnLoadState(h);
    DefaultsNormalized();
    SlotsExtensional(w, Defaults);
  }
}

=== FILE: frames.dfy ===
/** Properties of the settings page over one frame and over any run of
    frames from plugin load. */
module Frames {
  import opened Options
  import opened Text
  import opened Keys
  import opened HostModel
  import opened Apply
  import opened Controller

  /** A frame with no click only takes the edits and raises the notice. */
  lemma FrameIdle(s: Session, edits: map<Slot, char>)
    ensures Frame(s, edits, NoButton) == Session(Noticed(Edited(s.form, edits)), s.host)
  {
  }

  /** Save acts exactly when, after this frame's edits, there are unsaved
      changes and no duplicate; otherwise the click changes nothing. */
  lemma SaveGate(s: Session, edits: map<Slot, char>)
    ensures var f := Edited(s.form, edits);
      && (!SaveEnabled(f) ==> Frame(s, edits, SaveButton) == Frame(s, edits, NoButton))
      && (SaveEnabled(f) ==> Frame(s, edits, SaveButton) == SaveBranch(Session(Noticed(f), s.host)))
  {
    var f := Edited(s.form, edits);
    if !SaveEnabled(f) {
      assert !IsDirty(f) || Duplicate(f.working).Some?;
      FrameIdle(s, edits);
    }
  }

  /** Revert acts exactly when there are unsaved changes; on a clean page
      the click changes nothing. */
  lemma RevertGate(s: Session, edits: map<Slot, char>)
    ensures var f := Edited(s.form, edits);
      && (!IsDirty(f) ==> Frame(s, edits, RevertButton) == Frame(s, edits, NoButton))
      && (IsDirty(f) ==> Frame(s, edits, RevertButton) == Session(RevertBranch(Noticed(f)), s.host))
  {
  }

  /** Reset to Defaults acts exactly when the last applied keys are not the
      defaults, whether or not the fields are dirty or hold a duplicate. */
  lemma ResetGate(s: Session, edits: map<Slot, char>)
    ensures s.form.snapshot == Defaults ==>
      Frame(s, edits, ResetButton) == Frame(s, edits, NoButton)
    ensures s.form.snapshot != Defaults ==>
      Frame(s, edits, ResetButton) == ResetBranch(Session(Noticed(Edited(s.form, edits)), s.host))
  {
    var f1 := Edited(s.form, edits);
    assert f1.snapshot == s.form.snapshot;
    if s.form.snapshot == Defaults {
      assert IsAtDefaultsSaved(f1);
      FrameIdle(s, edits);
    } else {
      assert !IsAtDefaultsSaved(f1);
    }
  }

  /** After a successful save the page is clean, shows the normalised keys,
      and the host received the full apply sequence for exactly those keys. */
  lemma SaveCommits(s: Session, edits: map<Slot, char>)
    requires SaveEnabled(Edited(s.form, edits))
    requires Duplicate(NormalizeAll(Edited(s.form, edits).working)).None?
    ensures var r := Frame(s, edits, SaveButton);
      var w := NormalizeAll(Edited(s.form, edits).working);
      && r.form.working == w && r.form.snapshot == w
      && !IsDirty(r.form) && !r.form.toastShown
      && r.host == ApplyKeys(s.host, w)
  {
    SaveGate(s, edits);
  }

  /** A save commits the keys as applied even when the configuration file
      could not be opened: the file keeps its old contents while the page
      reports no unsaved changes. */
  lemma SaveCommitsDespiteWriteFailure(s: Session, edits: map<Slot, char>)
    requires !s.host.configWritable
    requires SaveEnabled(Edited(s.form, edits))
    requires Duplicate(NormalizeAll(Edited(s.form, edits).working)).None?
    ensures var r := Frame(s, edits, SaveButton);
      && r.host.configFile == s.host.configFile
      && r.form.snapshot == NormalizeAll(Edited(s.form, edits).working)
      && !IsDirty(r.form)
  {
    SaveCommits(s, edits);
    ApplyKeysState(s.host, NormalizeAll(Edited(s.form, edits).working));
  }

  /** When the re-check after normalising finds a duplicate, the save stops:
      no command reaches the host and the last applied keys stay as they were. */
  lemma BlockedSaveHasNoEffect(s: Session)
    requires Duplicate(NormalizeAll(s.form.working)).Some?
    ensures SaveBranch(s).host == s.host
    ensures SaveBranch(s).form.snapshot == s.form.snapshot
  {
  }

  /** No frame applies keys that hold a duplicate: Save applies only keys
      that passed the re-check, and Reset to Defaults applies the defaults,
      which are duplicate-free. Any other frame leaves the host alone. */
  lemma FrameAppliesOnlyDistinct(s: Session, edits: map<Slot, char>, button: Button)
    ensures var r := Frame(s, edits, button);
      r.host == s.host || exists w :: Duplicate(w).None? && r.host == ApplyKeys(s.host, w)
  {
    var f := Edited(s.form, edits);
    var r := Frame(s, edits, button);
    if button == SaveButton && SaveEnabled(f) {
      SaveGate(s, edits);
      var w := NormalizeAll(f.working);
      if Duplicate(w).None? {
        assert r.host == ApplyKeys(s.host, w);
      }
    } else if button == ResetButton && s.form.snapshot != Defaults {
      ResetGate(s, edits);
      DefaultsDistinct();
      assert r.host == ApplyKeys(s.host, Defaults);
    }
  }

  /** On normalised fields the re-check is redundant: a save that passed the
      gate always commits. */
  lemma NormalizedSaveNeverBlocked(f: Form, h: Host)
    requires AllNormalized(f.working)
    requires SaveEnabled(f)
    ensures SaveBranch(Session(f, h)).form.snapshot == f.working
    ensures SaveBranch(Session(f, h)).host == ApplyKeys(h, f.working)
  {
  }

  /** Normalised fields and snapshot stay normalised across any frame. */
  lemma FramePreservesNormalized(s: Session, edits: map<Slot, char>, button: Button)
    requires AllNormalized(s.form.working) && AllNormalized(s.form.snapshot)
    ensures AllNormalized(Frame(s, edits, button).form.working)
    ensures AllNormalized(Frame(s, edits, button).form.snapshot)
  {
    ApplyEditsEffect(s.form.working, edits);
    DefaultsNormalized();
  }

  /** On a clean, normalised page with no edits, clicking any button other
      than Reset to Defaults changes nothing. In particular a second Save
      right after a successful one does nothing. */
  lemma CleanPageIsIdle(s: Session, button: Button)
    requires !IsDirty(s.form) && AllNormalized(s.form.working)
    requires button != ResetButton
    ensures Frame(s, map[], button) == s
  {
    ApplyEditsEffect(s.form.working, map[]);
    assert Edited(s.form, map[]).working == s.form.working by {
      SlotsExtensional(Edited(s.form, map[]).working, s.form.working);
    }
  }

  /** Saving twice in a row: the second click is ignored. */
  lemma SecondSaveIsIgnored(s: Session, edits: map<Slot, char>)
    requires SaveEnabled(Edited(s.form, edits))
    requires Duplicate(NormalizeAll(Edited(s.form, edits).working)).None?
    ensures var r := Frame(s, edits, SaveButton);
      Frame(r, map[], SaveButton) == r
  {
    SaveCommits(s, edits);
    CleanPageIsIdle(Frame(s, edits, SaveButton), SaveButton);
  }

  /** Clearing a field leaves the single NUL character in it. That slot never
      takes part in a duplicate, and the page turns dirty unless the last
      applied key of that slot was NUL too. */
  lemma ClearedField(s: Session, slot: Slot)
    ensures var w := Edited(s.form, map[slot := NUL]).working;
      && w.Get(slot) == [NUL]
      && (forall b :: !SharedLead(w, slot, b) && !SharedLead(w, b, slot))
      && (s.form.snapshot.Get(slot) != [NUL] ==> IsDirty(Edited(s.form, map[slot := NUL])))
  {
    ApplyEditsEffect(s.form.working, map[slot := NUL]);
  }

  /** One frame's input: the edits typed and the button clicked. */
  datatype Input = Input(edits: map<Slot, char>, button: Button)

  /** The page after a run of frames. */
  function Run(s: Session, inputs: seq<Input>): (r: Session)
    decreases |inputs|
  {
    if inputs == [] then s else Run(Frame(s, inputs[0].edits, inputs[0].button), inputs[1..])
  }

  /** From plugin load, after any run of frames, the fields and the snapshot
      are normalised. */
  lemma {:induction false} RunPreservesNormalized(s: Session, inputs: seq<Input>)
    requires AllNormalized(s.form.working) && AllNormalized(s.form.snapshot)
    ensures AllNormalized(Run(s, inputs).form.working)
    ensures AllNormalized(Run(s, inputs).form.snapshot)
    decreases |inputs|
  {
    if inputs != [] {
      FramePreservesNormalized(s, inputs[0].edits, inputs[0].button);
      RunPreservesNormalized(Frame(s, inputs[0].edits, inputs[0].button), inputs[1..]);
    }
  }

  /** In every state the page can reach from plugin load, a Save click that
      passes the gate commits: the duplicate re-check after normalising never
      fires. */
  lemma RecheckNeverFires(h: Host, inputs: seq<Input>, edits: map<Slot, char>)
    ensures var s := Run(OnLoad(h), inputs);
      SaveEnabled(Edited(s.form, edits)) ==>
        Frame(s, edits, SaveButton).form.snapshot == Edited(s.form, edits).working
  {
    var s0 := OnLoad(h);
    OnLoadState(h);
    RunPreservesNormalized(s0, inputs);
    var s := Run(s0, inputs);
    ApplyEditsEffect(s.form.working, edits);
    SaveGate(s, edits);
  }
}

=== FILE: host.dfy ===
/** The host application as the plugin sees it: a console that executes
    commands, a store of console variables (cvars), the externally owned
    `binds.cfg` (readable or not), the plugin's own configuration file (which
    may refuse to open for writing), and the append-only trace of everything
    the plugin asked the host to do. */
module HostModel {
  import opened Options
  import opened Text
  import opened Keys
  import opened Commands

  /** A console command the plugin issues, named by what it does. */
  datatype Command =
    | UnbindAll                       // `UnbindAllManagedKeys`
    | UnbindKeys(keys: seq<string>)   // the phantom scrub's unbind list
    | WriteConfig                     // `PersistBinds`
    | ExecConfig                      // re-run the plugin's configuration file

  /** The exact text handed to `executeCommand`. */
  function CommandText(c: Command): string {
    match c
    case UnbindAll => UnbindAllCommand()
    case UnbindKeys(keys) => UnbindList(keys)
    case WriteConfig => WriteConfigCommand
    case ExecConfig => ExecConfigCommand
  }

  /** One host-visible effect. */
  datatype Event =
    | Exec(command: Command)
    | SetCvar(name: string, value: string)
    | WriteConfigFile(text: string)

  datatype Host = Host(cvars: map<string, string>, bindsFile: Option<string>,
                       configWritable: bool, configFile: Option<string>, trace: seq<Event>)

  /** The string value of a cvar; an unregistered one reads as empty. */
  function CvarValue(h: Host, name: string): string {
    if name in h.cvars then h.cvars[name] else ""
  }

  /** `executeCommand`: appends the command to the trace, nothing else. */
  function Execute(h: Host, c: Command): (r: Host)
    ensures r.trace == h.trace + [Exec(c)]
    ensures r.(trace := h.trace) == h
  {
    h.(trace := h.trace + [Exec(c)])
  }

  /** `getCvar(name).setValue(v)`: stores the value and records the write. */
  function SetCvarValue(h: Host, name: string, v: string): (r: Host)
    ensures r.trace == h.trace + [SetCvar(name, v)]
    ensures CvarValue(r, name) == v
    ensures forall n :: n != name ==> CvarValue(r, n) == CvarValue(h, n)
    ensures r.(cvars := h.cvars, trace := h.trace) == h
  {
    h.(cvars := h.cvars[name := v], trace := h.trace + [SetCvar(name, v)])
  }

  /** `registerCvar(name, default)`: a cvar that already holds a value keeps
      it; otherwise it starts at its default. Registration issues no command. */
  function RegisterCvar(h: Host, name: string, default: string): (r: Host)
    ensures name in r.cvars
    ensures CvarValue(r, name) == if name in h.cvars then h.cvars[name] else default
    ensures forall n :: n != name ==> CvarValue(r, n) == CvarValue(h, n)
    ensures r.(cvars := h.cvars) == h
  {
    if name in h.cvars then h else h.(cvars := h.cvars[name := default])
  }
}

=== FILE: keys.dfy ===
/** The six key slots of the plugin, the key normaliser and the duplicate
    check (MatchAdminHotkeys.cpp, `NormalizeKey` and the `hasDuplicates`
    lambda of `RenderSettings`). */
module Keys {
  import opened Options
  import opened Text

  /** The six actions a key can be assigned to. */
  datatype Slot = BluePlus | BlueMinus | OrangePlus | OrangeMinus | Pause | Reset

  /** The order in which the duplicate check, the cvar writes and the bind
      alias visit the slots. */
  const SlotOrder: seq<Slot> := [BluePlus, BlueMinus, OrangePlus, OrangeMinus, Pause, Reset]

  /** The position of a slot in `SlotOrder`. */
  function Position(s: Slot): (i: nat)
    ensures i < 6 && SlotOrder[i] == s
  {
    match s
    case BluePlus => 0
    case BlueMinus => 1
    case OrangePlus => 2
    case OrangeMinus => 3
    case Pause => 4
    case Reset => 5
  }

  /** One key string per slot. A slot normally holds one character, but the
      record admits anything a cvar can hold. */
  datatype Slots = Slots(bluePlus: string, blueMinus: string, orangePlus: string,
                         orangeMinus: string, pause: string, reset: string)
  {
    function Get(s: Slot): string {
      match s
      case BluePlus => bluePlus
      case BlueMinus => blueMinus
      case OrangePlus => orangePlus
      case OrangeMinus => orangeMinus
      case Pause => pause
      case Reset => reset
    }
  }

  /** Two key records are equal exactly when they agree slot by slot. */
  lemma SlotsExtensional(a: Slots, b: Slots)
    requires forall s :: a.Get(s) == b.Get(s)
    ensures a == b
  {
    assert a.Get(BluePlus) == b.Get(BluePlus);
    assert a.Get(BlueMinus) == b.Get(BlueMinus);
    assert a.Get(OrangePlus) == b.Get(OrangePlus);
    assert a.Get(OrangeMinus) == b.Get(OrangeMinus);
    assert a.Get(Pause) == b.Get(Pause);
    assert a.Get(Reset) == b.Get(Reset);
  }

  /** The identifier the host dispatches to when the slot's key is pressed. */
  function ActionId(s: Slot): string {
    match s
    case BluePlus => "mah_blue_plus"
    case BlueMinus => "mah_blue_minus"
    case OrangePlus => "mah_orange_plus"
    case OrangeMinus => "mah_orange_minus"
    case Pause => "mah_pause_toggle"
    case Reset => "mah_reset_kickoff"
  }

  /** The console variable that persists the slot's key. */
  function KeyCvar(s: Slot): string {
    match s
    case BluePlus => "mah_key_blue_plus"
    case BlueMinus => "mah_key_blue_minus"
    case OrangePlus => "mah_key_orange_plus"
    case OrangeMinus => "mah_key_orange_minus"
    case Pause => "mah_key_pause_toggle"
    case Reset => "mah_key_reset_kickoff"
  }

  /** Different slots persist in different cvars. */
  lemma KeyCvarInjective(a: Slot, b: Slot)
    ensures KeyCvar(a) == KeyCvar(b) ==> a == b
  {
  }

  /** The default keys the cvars are registered with: U, J, I, K, P, O. */
  const Defaults: Slots := Slots("U", "J", "I", "K", "P", "O")

  /** A normalised key: at most one character, and not a lower-case letter. */
  predicate Normalized(v: string) {
    |v| <= 1 && (|v| == 1 ==> !IsLowerAscii(v[0]))
  }

  /** Keeps only the first character of a key and upper-cases it when it is a
      letter; an empty key stays empty. The fixed points are exactly the
      normalised keys, so normalising twice is normalising once. */
  function NormalizeKey(v: string): (r: string)
    ensures Normalized(r)
    ensures |r| == if v == [] then 0 else 1
    ensures v != [] ==> ToLowerAscii(r[0]) == ToLowerAscii(v[0])
    ensures r == v <==> Normalized(v)
  {
    if v == [] then v else [ToUpperAscii(v[0])]
  }

  lemma NormalizeKeyIdempotent(v: string)
    ensures NormalizeKey(NormalizeKey(v)) == NormalizeKey(v)
  {
  }

  /** Every slot is normalised. */
  predicate AllNormalized(w: Slots) {
    forall s :: Normalized(w.Get(s))
  }

  /** Applies `NormalizeKey` to every slot. */
  function NormalizeAll(w: Slots): (r: Slots)
    ensures AllNormalized(r)
    ensures forall s :: r.Get(s) == NormalizeKey(w.Get(s))
    ensures r == w <==> AllNormalized(w)
  {
    var r := Slots(NormalizeKey(w.bluePlus), NormalizeKey(w.blueMinus), NormalizeKey(w.orangePlus),
                   NormalizeKey(w.orangeMinus), NormalizeKey(w.pause), NormalizeKey(w.reset));
    NormalizeFields(w, r);
    r
  }

  /** The slot-by-slot facts behind `NormalizeAll`'s contract. */
  lemma NormalizeFields(w: Slots, r: Slots)
    requires r == Slots(NormalizeKey(w.bluePlus), NormalizeKey(w.blueMinus), NormalizeKey(w.orangePlus),
                        NormalizeKey(w.orangeMinus), NormalizeKey(w.pause), NormalizeKey(w.reset))
    ensures AllNormalized(r)
    ensures forall s :: r.Get(s) == NormalizeKey(w.Get(s))
    ensures r == w <==> AllNormalized(w)
  {
    forall s ensures r.Get(s) == NormalizeKey(w.Get(s)) {
    }
    forall s ensures Normalized(r.Get(s)) {
      assert r.Get(s) == NormalizeKey(w.Get(s));
    }
    if AllNormalized(w) {
      forall s ensures r.Get(s) == w.Get(s) {
        assert Normalized(w.Get(s));
      }
      SlotsExtensional(r, w);
    }
  }

  /** The defaults are already normalised. */
  lemma DefaultsNormalized()
    ensures AllNormalized(Defaults)
    ensures forall s :: NormalizeKey(Defaults.Get(s)) == Defaults.Get(s)
  {
    forall s ensures Normalized(Defaults.Get(s)) {
    }
  }

  /** The character the duplicate check looks at: the first one, or NUL for
      an empty slot. */
  function Lead(v: string): char {
    if v == [] then NUL else v[0]
  }

  /** The six lead characters in scanning order. */
  function Leads(w: Slots): (r: seq<char>)
    ensures |r| == 6
    ensures forall i :: 0 <= i < 6 ==> r[i] == Lead(w.Get(SlotOrder[i]))
  {
    [Lead(w.bluePlus), Lead(w.blueMinus), Lead(w.orangePlus),
     Lead(w.orangeMinus), Lead(w.pause), Lead(w.reset)]
  }

  /** Scans `ks` left to right, skipping NUL, remembering the characters seen
      so far, and stops at the first character seen a second time. */
  function FirstRepeat(ks: seq<char>, seen: set<char>): Option<char>
    decreases |ks|
  {
    if ks == [] then None
    else if ks[0] == NUL then FirstRepeat(ks[1..], seen)
    else if ks[0] in seen then Some(ks[0])
    else FirstRepeat(ks[1..], seen + {ks[0]})
  }

  /** The duplicate check over a sequence of lead characters. */
  function FindDuplicate(ks: seq<char>): Option<char> {
    FirstRepeat(ks, {})
  }

  /** The duplicate check over the six slots. */
  function Duplicate(w: Slots): Option<char> {
    FindDuplicate(Leads(w))
  }

  /** No non-NUL character occurs twice. */
  predicate Distinct(ks: seq<char>) {
    forall i, j :: 0 <= i < j < |ks| && ks[i] != NUL ==> ks[i] != ks[j]
  }

  /** The non-NUL characters of `ks`. */
  function Seen(ks: seq<char>): set<char> {
    set i | 0 <= i < |ks| && ks[i] != NUL :: ks[i]
  }

  /** Position `j` holds a non-NUL character that already occurs before it. */
  predicate RepeatsAt(ks: seq<char>, j: int) {
    0 <= j < |ks| && ks[j] != NUL && ks[j] in ks[..j]
  }

  /** `k` is the character at the first position that repeats an earlier one. */
  predicate IsFirstRepeat(ks: seq<char>, k: char) {
    exists j :: 0 <= j < |ks| && RepeatsAt(ks, j) && Distinct(ks[..j]) && ks[j] == k
  }

  lemma {:induction false} FirstRepeatFrom(pre: seq<char>, ks: seq<char>)
    requires Distinct(pre)
    ensures FirstRepeat(ks, Seen(pre)).None? <==> Distinct(pre + ks)
    ensures FirstRepeat(ks, Seen(pre)).Some? ==> IsFirstRepeat(pre + ks, FirstRepeat(ks, Seen(pre)).value)
    decreases |ks|
  {
    if ks == [] {
      assert pre + ks == pre;
    } else {
      var k := ks[0];
      var pre' := pre + [k];
      assert pre' + ks[1..] == pre + ks;
      if k == NUL {
        assert Seen(pre') == Seen(pre) by {
          forall c | c in Seen(pre') ensures c in Seen(pre) {
            var i :| 0 <= i < |pre'| && pre'[i] != NUL && pre'[i] == c;
            assert i < |pre| && pre[i] == c;
          }
          forall c | c in Seen(pre) ensures c in Seen(pre') {
            var i :| 0 <= i < |pre| && pre[i] != NUL && pre[i] == c;
            assert pre'[i] == c;
          }
        }
        FirstRepeatFrom(pre', ks[1..]);
      } else if k in Seen(pre) {
        var s := pre + ks;
        assert s[..|pre|] == pre;
        assert s[|pre|] == k;
        var i :| 0 <= i < |pre| && pre[i] != NUL && pre[i] == k;
        assert s[i] == k;
        assert RepeatsAt(s, |pre|);
        assert !Distinct(s);
      } else {
        assert Seen(pre') == Seen(pre) + {k} by {
          forall c | c in Seen(pre') ensures c in Seen(pre) + {k} {
            var i :| 0 <= i < |pre'| && pre'[i] != NUL && pre'[i] == c;
            if i < |pre| {
              assert pre[i] == c;
            }
          }
          forall c | c in Seen(pre) + {k} ensures c in Seen(pre') {
            if c == k {
              assert pre'[|pre|] == k;
            } else {
              var i :| 0 <= i < |pre| && pre[i] != NUL && pre[i] == c;
              assert pre'[i] == c;
            }
          }
        }
        assert forall i :: 0 <= i < |pre| && pre[i] != NUL ==> pre[i] in Seen(pre);
        assert Distinct(pre');
        FirstRepeatFrom(pre', ks[1..]);
      }
    }
  }

  /** The check finds nothing exactly when all non-NUL lead characters are
      pairwise distinct, and otherwise returns the first character that the
      left-to-right scan meets for the second time. */
  lemma FindDuplicateSpec(ks: seq<char>)
    ensures FindDuplicate(ks).None? <==> Distinct(ks)
    ensures FindDuplicate(ks).Some? ==> IsFirstRepeat(ks, FindDuplicate(ks).value)
  {
    assert Seen([]) == {};
    FirstRepeatFrom([], ks);
    assert [] + ks == ks;
  }

  /** Two different slots whose keys start with the same non-NUL character. */
  predicate SharedLead(w: Slots, a: Slot, b: Slot) {
    a != b && Lead(w.Get(a)) != NUL && Lead(w.Get(a)) == Lead(w.Get(b))
  }

  /** Different positions of `SlotOrder` name different slots. */
  lemma SlotOrderDistinct(i: int, j: int)
    requires 0 <= i < 6 && 0 <= j < 6 && i != j
    ensures SlotOrder[i] != SlotOrder[j]
  {
  }

  lemma DistinctLeadsIffNoSharedLead(w: Slots)
    ensures Distinct(Leads(w)) <==> forall a, b :: !SharedLead(w, a, b)
  {
    var ks := Leads(w);
    if Distinct(ks) {
      forall a, b ensures !SharedLead(w, a, b) {
        var i := Position(a);
        var j := Position(b);
        if i < j {
          assert ks[i] == Lead(w.Get(a)) && ks[j] == Lead(w.Get(b));
        } else if j < i && Lead(w.Get(b)) != NUL {
          assert ks[i] == Lead(w.Get(a)) && ks[j] == Lead(w.Get(b));
        }
      }
    } else {
      var i, j :| 0 <= i < j < 6 && ks[i] != NUL && ks[i] == ks[j];
      SlotOrderDistinct(i, j);
      assert SharedLead(w, SlotOrder[i], SlotOrder[j]);
    }
  }

  /** The defaults U, J, I, K, P, O never trip the duplicate check, which is
      why Reset to Defaults may apply them without checking. */
  lemma DefaultsDistinct()
    ensures Duplicate(Defaults).None?
    ensures forall a, b :: !SharedLead(Defaults, a, b)
  {
    var ks := Leads(Defaults);
    assert ks == "UJIKPO";
    FindDuplicateSpec(ks);
    DistinctLeadsIffNoSharedLead(Defaults);
  }

  /** Slot-level reading of the duplicate check: nothing is reported exactly
      when no two slots share a non-NUL lead character, and a reported
      character is the lead of two different slots. Empty and cleared slots
      never count as duplicates of each other. */
  lemma DuplicateIffSharedLead(w: Slots)
    ensures Duplicate(w).None? <==> forall a, b :: !SharedLead(w, a, b)
    ensures Duplicate(w).Some? ==>
      exists a, b :: SharedLead(w, a, b) && Lead(w.Get(a)) == Duplicate(w).value
  {
    var ks := Leads(w);
    FindDuplicateSpec(ks);
    DistinctLeadsIffNoSharedLead(w);
    if Duplicate(w).Some? {
      var k := Duplicate(w).value;
      var j :| 0 <= j < |ks| && RepeatsAt(ks, j) && Distinct(ks[..j]) && ks[j] == k;
      var i :| 0 <= i < j && ks[..j][i] == k;
      SlotOrderDistinct(i, j);
      assert SharedLead(w, SlotOrder[i], SlotOrder[j]);
    }
  }
}

=== FILE: options.dfy ===
/** The optional-value datatype used for "no duplicate", "line does not match",
    "file could not be opened" and "score left alone". */
module Options {

  datatype Option<+T> = None | Some(value: T)
}

=== FILE: scenarios.dfy ===
/** Concrete walks through the settings page and the scrub. */
module Scenarios {
  import opened Options
  import opened Text
  import opened Keys
  import opened Commands
  import opened Scrub
  import opened HostModel
  import opened Apply
  import opened Controller
  import opened Frames

  /** A host with nothing stored, a readable empty bind file, and a
      writable configuration file. */
  const FreshHost: Host := Host(map[], Some(""), true, None, [])

  /** Loading with nothing stored shows the defaults, clean, and reports them
      as the saved state. */
  lemma DefaultLoad()
    ensures OnLoad(FreshHost).form.working == Defaults
    ensures OnLoad(FreshHost).form.snapshot == Defaults
    ensures !IsDirty(OnLoad(FreshHost).form)
    ensures IsAtDefaultsSaved(OnLoad(FreshHost).form)
  {
    OnLoadFresh(FreshHost);
  }

  /** The clean page at the defaults. */
  const AtDefaults: Session := Session(Form(Defaults, Defaults, false), FreshHost)

  /** The page after typing `i` into the Blue +1 field. */
  function AfterTypingI(): Session {
    Frame(AtDefaults, map[BluePlus := 'i'], NoButton)
  }

  /** The keys with `I` in both Blue +1 and Orange +1. */
  const TypedI: Slots := Slots("I", "J", "I", "K", "P", "O")

  lemma TypedIFields()
    ensures Edited(AtDefaults.form, map[BluePlus := 'i']).working == TypedI
  {
    var edits := map[BluePlus := 'i'];
    ApplyEditsEffect(Defaults, edits);
    assert NormalizeKey(['i']) == "I";
    SlotsExtensional(Edited(AtDefaults.form, edits).working, TypedI);
  }

  lemma TypedIDuplicate()
    ensures Duplicate(TypedI) == Some('I')
  {
    assert Leads(TypedI) == ['I', 'J', 'I', 'K', 'P', 'O'];
  }

  /** Typing `i` for Blue +1 gives `I`, which Orange +1 already holds: the
      page is dirty with a duplicate, and a Save click in that frame changes
      nothing and sends nothing to the host. */
  lemma TypingDuplicate()
    ensures AfterTypingI().form.working == TypedI
    ensures Duplicate(AfterTypingI().form.working) == Some('I')
    ensures IsDirty(AfterTypingI().form) && AfterTypingI().form.toastShown
    ensures !SaveEnabled(Edited(AtDefaults.form, map[BluePlus := 'i']))
    ensures Frame(AtDefaults, map[BluePlus := 'i'], SaveButton) == AfterTypingI()
    ensures AfterTypingI().host == FreshHost
  {
    var edits := map[BluePlus := 'i'];
    TypedIFields();
    TypedIDuplicate();
    assert TypedI.bluePlus != Defaults.bluePlus;
    SaveGate(AtDefaults, edits);
    FrameIdle(AtDefaults, edits);
  }

  /** The keys after also typing `L` for Orange +1. */
  const Resolved: Slots := Slots("I", "J", "L", "K", "P", "O")

  lemma ResolvedDistinct()
    ensures Duplicate(Resolved).None?
  {
    var ks := Leads(Resolved);
    assert ks == ['I', 'J', 'L', 'K', 'P', 'O'];
    assert Distinct(ks);
    FindDuplicateSpec(ks);
  }

  lemma ResolvedNormalized()
    ensures AllNormalized(Resolved)
  {
    forall s ensures Normalized(Resolved.Get(s)) {
    }
  }

  lemma ResolvedWritable()
    ensures Writable(Resolved, "", "")
  {
    forall s ensures ';' !in Resolved.Get(s) && '"' !in Resolved.Get(s) && '\n' !in Resolved.Get(s) {
      assert |Resolved.Get(s)| == 1;
      assert Resolved.Get(s)[0] in "IJLKPO";
    }
  }

  /** Typing `L` for Orange +1 resolves the duplicate; saving in the same frame
      commits the new keys, and the configuration file now reads back as
      binding `I` to the Blue +1 identifier and `L` to the Orange +1
      identifier, with empty overrides. */
  lemma ResolveAndSave()
    ensures var r := Frame(AfterTypingI(), map[OrangePlus := 'L'], SaveButton);
      && r.form.working == Resolved && r.form.snapshot == Resolved
      && !IsDirty(r.form)
      && r.host.configFile.Some?
      && ReadConfig(r.host.configFile.value) == Some(Config(Resolved, "", ""))
  {
    var s := AfterTypingI();
    var edits := map[OrangePlus := 'L'];
    ResolvedFields();
    ResolvedSaveEnabled();
    ResolvedNormalized();
    assert NormalizeAll(Resolved) == Resolved;
    SaveCommits(s, edits);
    ResolvedReadsBack();
  }

  lemma ResolvedFields()
    ensures Edited(AfterTypingI().form, map[OrangePlus := 'L']).working == Resolved
    ensures AfterTypingI().host == FreshHost
  {
    FrameIdle(AtDefaults, map[BluePlus := 'i']);
    TypedIFields();
    var edits := map[OrangePlus := 'L'];
    ApplyEditsEffect(TypedI, edits);
    assert [ToUpperAscii('L')] == "L";
    SlotsExtensional(ApplyEdits(TypedI, edits), Resolved);
  }

  lemma ResolvedSaveEnabled()
    ensures SaveEnabled(Edited(AfterTypingI().form, map[OrangePlus := 'L']))
  {
    ResolvedFields();
    ResolvedDistinct();
    TypingDuplicate();
    assert Resolved.orangePlus != TypedI.orangePlus;
  }

  lemma ResolvedReadsBack()
    ensures ApplyKeys(FreshHost, Resolved).configFile.Some?
    ensures ReadConfig(ApplyKeys(FreshHost, Resolved).configFile.value) == Some(Config(Resolved, "", ""))
  {
    assert CvarValue(FreshHost, PauseCmdCvar) == "" && CvarValue(FreshHost, ResetCmdCvar) == "";
    ResolvedWritable();
    ApplyKeysConfigReadsBack(FreshHost, Resolved);
  }

  /** Fields where `a` and `A` sit side by side, unnormalised. */
  const CaseClash: Slots := Slots("a", "J", "A", "K", "P", "O")

  lemma CaseClashPassesGate()
    ensures Duplicate(CaseClash).None?
  {
    var ks := Leads(CaseClash);
    assert ks == ['a', 'J', 'A', 'K', 'P', 'O'];
    assert Distinct(ks);
    FindDuplicateSpec(ks);
  }

  lemma CaseClashNormalizedRepeats()
    ensures Duplicate(NormalizeAll(CaseClash)) == Some('A')
  {
    SlotsExtensional(NormalizeAll(CaseClash), Slots("A", "J", "A", "K", "P", "O"));
    assert Leads(NormalizeAll(CaseClash)) == ['A', 'J', 'A', 'K', 'P', 'O'];
  }

  /** A session whose fields hold an unnormalised duplicate: `a` and `A`
      differ, so the gate lets Save through, but after normalising both are
      `A` and the re-check stops the save. Such fields cannot arise from
      plugin load and typing (see `Frames.RecheckNeverFires`). */
  lemma RecheckCatchesCaseDuplicate()
    ensures var s := Session(Form(CaseClash, Defaults, false), FreshHost);
      && SaveEnabled(s.form)
      && Duplicate(NormalizeAll(s.form.working)) == Some('A')
      && SaveBranch(s).host == s.host
      && SaveBranch(s).form.snapshot == Defaults
  {
    CaseClashPassesGate();
    CaseClashNormalizedRepeats();
    assert CaseClash.bluePlus != Defaults.bluePlus;
  }

  /** Keys `é` and `è` as the UTF-8 bytes C3 A9 and C3 A8, which a key cvar
      can hold when set from the console. */
  const AccentKeys: Slots := Slots("\U{C3}\U{A9}", "\U{C3}\U{A8}", "I", "K", "P", "O")

  /** Both keys share their first byte, so the duplicate check reports that
      byte, and normalising keeps only it in both slots. */
  lemma AccentKeysClash()
    ensures Duplicate(AccentKeys) == Some('\U{C3}')
    ensures NormalizeAll(AccentKeys).bluePlus == NormalizeAll(AccentKeys).blueMinus == "\U{C3}"
  {
    assert Leads(AccentKeys) == ['\U{C3}', '\U{C3}', 'I', 'K', 'P', 'O'];
  }

  /** The defaults with Blue +1 cleared. */
  const ClearedBluePlus: Slots := Slots([NUL], "J", "I", "K", "P", "O")

  /** Clearing Blue +1 and saving in the same frame: a cleared slot is no
      duplicate, so the save goes through and the file carries the bind
      `bind <NUL> mah_blue_plus`, which does not read back as the keys that
      were saved. */
  lemma ClearedKeySaved()
    ensures var r := Frame(AtDefaults, map[BluePlus := NUL], SaveButton);
      && r.form.snapshot == ClearedBluePlus
      && r.host.configFile == Some(ConfigText(ClearedBluePlus, "", ""))
      && ReadConfig(r.host.configFile.value) != Some(Config(ClearedBluePlus, "", ""))
  {
    var edits := map[BluePlus := NUL];
    ClearedFields();
    ClearedSaveEnabled();
    ClearedDistinct();
    SaveCommits(AtDefaults, edits);
    ClearedWritten();
    UnreadableKeyNotReadBack(ClearedBluePlus, "", "", BluePlus);
  }

  lemma ClearedFields()
    ensures Edited(AtDefaults.form, map[BluePlus := NUL]).working == ClearedBluePlus
    ensures NormalizeAll(ClearedBluePlus) == ClearedBluePlus
  {
    var edits := map[BluePlus := NUL];
    ApplyEditsEffect(Defaults, edits);
    assert [ToUpperAscii(NUL)] == [NUL];
    SlotsExtensional(Edited(AtDefaults.form, edits).working, ClearedBluePlus);
    forall s ensures Normalized(ClearedBluePlus.Get(s)) {
    }
  }

  lemma ClearedDistinct()
    ensures Duplicate(ClearedBluePlus).None?
  {
    var ks := Leads(ClearedBluePlus);
    assert ks == [NUL, 'J', 'I', 'K', 'P', 'O'];
    assert Distinct(ks);
    FindDuplicateSpec(ks);
  }

  lemma ClearedSaveEnabled()
    ensures SaveEnabled(Edited(AtDefaults.form, map[BluePlus := NUL]))
  {
    ClearedFields();
    ClearedDistinct();
    assert ClearedBluePlus.bluePlus != Defaults.bluePlus;
  }

  lemma ClearedWritten()
    ensures ApplyKeys(FreshHost, ClearedBluePlus).configFile == Some(ConfigText(ClearedBluePlus, "", ""))
  {
    ApplyKeysState(FreshHost, ClearedBluePlus);
    assert CvarValue(FreshHost, PauseCmdCvar) == "" && CvarValue(FreshHost, ResetCmdCvar) == "";
  }

  /** A dirty page with a duplicate can still be reset: the defaults are
      applied and committed. */
  lemma ResetFromInvalid()
    ensures var s := Session(Form(Slots("I", "J", "I", "K", "P", "X"), Slots("U", "J", "I", "K", "P", "X"), true), FreshHost);
      var r := Frame(s, map[], ResetButton);
      && r.form.working == Defaults && r.form.snapshot == Defaults
      && IsAtDefaultsSaved(r.form) && !IsDirty(r.form)
  {
    var s := Session(Form(Slots("I", "J", "I", "K", "P", "X"), Slots("U", "J", "I", "K", "P", "X"), true), FreshHost);
    ResetGate(s, map[]);
  }

  /** The bind-file line of the example. */
  const ZLine: string := "bind Z \"" + ActionId(Reset) + "\""

  lemma ZLineShape()
    ensures |ZLine| == 26
    ensures ShapeAt(ZLine, 0, 5, 6, 7, 25)
    ensures ZLine[5..6] == "Z" && ZLine[8..25] == ActionId(Reset)
  {
    var pre := "bind Z \"";
    var id := ActionId(Reset);
    ZLineParts();
    assert ZLine[5..6] == [pre[5]];
    assert ZLine[8..25] == id;
    assert forall k :: 8 <= k < 25 ==> ZLine[k] == id[k - 8];
  }

  lemma ZLineParts()
    ensures |ActionId(Reset)| == 17
    ensures ZLine == "bind Z \"" + ActionId(Reset) + "\""
    ensures ZLine[..8] == "bind Z \"" && ZLine[8..25] == ActionId(Reset) && ZLine[25] == '"'
  {
  }

  lemma ZLineContributes()
    ensures PhantomKey(ZLine) == Some("Z")
  {
    ZLineShape();
    ParseBindLineComplete(ZLine, 0, 5, 6, 7, 25);
    assert OccursAt(ZLine[8..25], ActionId(SlotOrder[5]), 0);
  }

  /** A bind file holding `bind Z "mah_reset_kickoff"` yields the key `Z`
      to unbind, and the scrub sends exactly that unbind followed by a
      request to persist. */
  lemma ScrubFindsZ()
    ensures ScrubKeys(Some(ZLine + "\n")) == ["Z"]
    ensures ScrubEvents(Some(ZLine + "\n")) == [Exec(UnbindKeys(["Z"])), Exec(WriteConfig)]
  {
    ZLineShape();
    assert '\n' !in ZLine by {
      assert forall k :: 0 <= k < |ZLine| ==> ZLine[k] != '\n';
    }
    LinesOfJoinLines([ZLine]);
    assert JoinLines([ZLine]) == ZLine + "\n";
    ZLineContributes();
    PhantomKeysOneLine(ZLine);
  }
}

=== FILE: scores.dfy ===
/** The score handlers behind the four score identifiers
    (MatchAdminHotkeys.cpp, `AdjustBlueScore` and `AdjustOrangeScore`):
    a change of zero does nothing, a disabled plugin or a match whose two
    teams cannot be found does nothing, and otherwise the team's score moves
    by the change but never below zero. */
module Scores {
  import opened Options
  import opened Keys

  datatype Team = Blue | Orange

  /** The two teams' scores, when the match exposes both teams. */
  datatype Board = Board(blue: int, orange: int)
  {
    function Of(t: Team): int {
      match t
      case Blue => blue
      case Orange => orange
    }
  }

  /** The new score: the old one moved by `delta`, clamped at zero. */
  function Clamped(current: int, delta: int): (next: int)
    ensures next >= 0
    ensures next == current + delta || (next == 0 && current + delta < 0)
    ensures current + delta >= 0 ==> next == current + delta
  {
    var next := current + delta;
    if next < 0 then 0 else next
  }

  /** One score handler call. `board` is `None` when the teams cannot be
      resolved; the result is the board afterwards. */
  function AdjustScore(board: Option<Board>, enabled: bool, team: Team, delta: int): (r: Option<Board>)
    ensures r.None? <==> board.None?
    ensures (delta == 0 || !enabled) ==> r == board
    ensures board.Some? && delta != 0 && enabled ==>
      && r.value.Of(team) == Clamped(board.value.Of(team), delta)
      && (forall t :: t != team ==> r.value.Of(t) == board.value.Of(t))
  {
    if delta == 0 || !enabled then board
    else match board
      case None => None
      case Some(b) =>
        var next := Clamped(b.Of(team), delta);
        Some(match team case Blue => b.(blue := next) case Orange => b.(orange := next))
  }

  /** The score change bound to a score slot; the other two slots do not
      touch the score. */
  function ScoreAction(s: Slot): Option<(Team, int)> {
    match s
    case BluePlus => Some((Blue, 1))
    case BlueMinus => Some((Blue, -1))
    case OrangePlus => Some((Orange, 1))
    case OrangeMinus => Some((Orange, -1))
    case Pause => None
    case Reset => None
  }

  /** Pressing a score key: a `+` key adds one, a `-` key removes one but
      never takes a score below zero; the other team is untouched; a
      disabled plugin or unresolved teams change nothing. */
  lemma ScoreKeyEffect(board: Board, enabled: bool, s: Slot)
    requires ScoreAction(s).Some?
    requires board.blue >= 0 && board.orange >= 0
    ensures var (team, delta) := ScoreAction(s).value;
      var r := AdjustScore(Some(board), enabled, team, delta);
      && r.Some?
      && (!enabled ==> r.value == board)
      && (enabled && delta == 1 ==> r.value.Of(team) == board.Of(team) + 1)
      && (enabled && delta == -1 ==> r.value.Of(team) == if board.Of(team) == 0 then 0 else board.Of(team) - 1)
      && r.value.blue >= 0 && r.value.orange >= 0
  {
  }

  /** Removing a point from a team at zero leaves it at zero; adding one to
      three gives four. */
  lemma ScoreExamples()
    ensures AdjustScore(Some(Board(0, 2)), true, Blue, -1) == Some(Board(0, 2))
    ensures AdjustScore(Some(Board(1, 3)), true, Orange, 1) == Some(Board(1, 4))
    ensures AdjustScore(None, true, Blue, 1) == None
  {
  }
}

=== FILE: scrub.dfy ===
/** The phantom-bind scan of `binds.cfg` (MatchAdminHotkeys.cpp,
    `ScrubBindsCfgPhantoms`). The pattern `^\s*bind\s+([^\s]+)\s+"([^"]+)"`,
    matched case-insensitively against each line, is replaced by a
    deterministic parser: every repetition in the pattern is followed by a
    character its class excludes, so each run is maximal and the match, when
    there is one, is unique. `ShapeAt` states the pattern declaratively and
    the parser is proved to agree with it in both directions. */
module Scrub {
  import opened Options
  import opened Text
  import opened Keys

  /** The key and the quoted command of a matching line. */
  datatype BindLine = BindLine(key: string, command: string)

  /** `line[a..a+4]` spells `bind` in any mixture of cases. */
  predicate BindTokenAt(line: string, a: int)
    requires 0 <= a && a + 4 <= |line|
  {
    && ToLowerAscii(line[a]) == 'b'
    && ToLowerAscii(line[a + 1]) == 'i'
    && ToLowerAscii(line[a + 2]) == 'n'
    && ToLowerAscii(line[a + 3]) == 'd'
  }

  /** From position `t` on, the line continues the bind pattern with the
      key at `[c, d)`, the opening quote at `e` and the closing quote at `f`:
      whitespace, a non-empty key free of whitespace, whitespace, then a
      non-empty quoted command free of quotes. Whatever follows the closing
      quote is ignored. */
  predicate TailAt(line: string, t: int, c: int, d: int, e: int, f: int) {
    && 0 <= t < c < d < e && e + 1 < f < |line|
    && AllOf(IsSpace, line, t, c)
    && AllOf(NotSpace, line, c, d)
    && AllOf(IsSpace, line, d, e)
    && line[e] == '"'
    && AllOf(NotQuote, line, e + 1, f)
    && line[f] == '"'
  }

  /** The line matches the bind pattern with the token `bind` at `a`:
      optional leading whitespace, `bind`, then the rest as in `TailAt`. */
  predicate ShapeAt(line: string, a: int, c: int, d: int, e: int, f: int) {
    && 0 <= a && a + 4 <= |line|
    && AllOf(IsSpace, line, 0, a)
    && BindTokenAt(line, a)
    && TailAt(line, a + 4, c, d, e, f)
  }

  /** Parses the quoted command that opens at `e`. */
  function ParseCommand(line: string, c: int, d: int, e: int): (r: Option<BindLine>)
    requires 0 <= c < d < e < |line|
    ensures r.Some? ==> exists f :: (e + 1 < f < |line| && AllOf(NotQuote, line, e + 1, f)
      && line[f] == '"' && r.value == BindLine(line[c..d], line[e + 1..f]))
  {
    var f := Span(NotQuote, line, e + 1);
    if f == e + 1 || f == |line| then None
    else Some(BindLine(line[c..d], line[e + 1..f]))
  }

  /** Parses the part of the line after the token `bind`, from `t` on. */
  function ParseTail(line: string, t: nat): (r: Option<BindLine>)
    requires t <= |line|
    ensures r.Some? ==> exists c, d, e, f ::
      TailAt(line, t, c, d, e, f) && r.value == BindLine(line[c..d], line[e + 1..f])
  {
    var c := Span(IsSpace, line, t);
    var d := Span(NotSpace, line, c);
    var e := Span(IsSpace, line, d);
    if c == t || d == c || e == d || e == |line| || line[e] != '"' then None
    else
      var r := ParseCommand(line, c, d, e);
      if r.Some? then
        var f :| && e + 1 < f < |line| && AllOf(NotQuote, line, e + 1, f)
          && line[f] == '"' && r.value == BindLine(line[c..d], line[e + 1..f]);
        assert TailAt(line, t, c, d, e, f);
        r
      else r
  }

  /** Parses one line of the bind file; `None` when it does not match. */
  function ParseBindLine(line: string): (r: Option<BindLine>)
    ensures r.Some? ==> exists a, c, d, e, f ::
      ShapeAt(line, a, c, d, e, f) && r.value == BindLine(line[c..d], line[e + 1..f])
  {
    var a := Span(IsSpace, line, 0);
    if !(a + 4 <= |line| && BindTokenAt(line, a)) then None
    else
      var r := ParseTail(line, a + 4);
      if r.Some? then
        var c, d, e, f :| TailAt(line, a + 4, c, d, e, f) && r.value == BindLine(line[c..d], line[e + 1..f]);
        assert ShapeAt(line, a, c, d, e, f);
        r
      else r
  }

  /** The tail parser finds the match whenever there is one. */
  lemma TailComplete(line: string, t: nat, c: int, d: int, e: int, f: int)
    requires t <= |line|
    requires TailAt(line, t, c, d, e, f)
    ensures ParseTail(line, t) == Some(BindLine(line[c..d], line[e + 1..f]))
  {
    SpanExact(IsSpace, line, t, c);
    SpanExact(NotSpace, line, c, d);
    SpanExact(IsSpace, line, d, e);
    CommandComplete(line, c, d, e, f);
  }

  lemma CommandComplete(line: string, c: int, d: int, e: int, f: int)
    requires 0 <= c < d < e && e + 1 < f < |line|
    requires AllOf(NotQuote, line, e + 1, f) && line[f] == '"'
    ensures ParseCommand(line, c, d, e) == Some(BindLine(line[c..d], line[e + 1..f]))
  {
    SpanExact(NotQuote, line, e + 1, f);
  }

  /** Completeness: every way the line can match the pattern is the match the
      parser reports. With the soundness half in `ParseBindLine`'s contract,
      the parser accepts exactly the lines the pattern matches. */
  lemma ParseBindLineComplete(line: string, a: int, c: int, d: int, e: int, f: int)
    requires ShapeAt(line, a, c, d, e, f)
    ensures ParseBindLine(line) == Some(BindLine(line[c..d], line[e + 1..f]))
  {
    SpanExact(IsSpace, line, 0, a);
    TailComplete(line, a + 4, c, d, e, f);
  }

  /** The command names one of the six action identifiers (case-sensitive
      substring test). */
  predicate MentionsAction(command: string) {
    exists i :: 0 <= i < 6 && Contains(command, ActionId(SlotOrder[i]))
  }

  /** The key a line contributes to the scrub, if any. */
  function PhantomKey(line: string): Option<string> {
    match ParseBindLine(line)
    case Some(b) => if MentionsAction(b.command) then Some(b.key) else None
    case None => None
  }

  /** The scrub's line rule stated against the pattern itself: a line
      contributes key `k` exactly when it matches the bind pattern with `k`
      as the key and a quoted command that names one of the six
      identifiers. */
  lemma PhantomKeyMatchesPattern(line: string, k: string)
    ensures PhantomKey(line) == Some(k) <==>
      exists a, c, d, e, f :: ShapeAt(line, a, c, d, e, f) && k == line[c..d] && MentionsAction(line[e + 1..f])
  {
    if PhantomKey(line) == Some(k) {
      var b := ParseBindLine(line).value;
      var a, c, d, e, f :| ShapeAt(line, a, c, d, e, f) && b == BindLine(line[c..d], line[e + 1..f]);
      assert k == line[c..d] && MentionsAction(line[e + 1..f]);
    }
    if exists a, c, d, e, f :: ShapeAt(line, a, c, d, e, f) && k == line[c..d] && MentionsAction(line[e + 1..f]) {
      var a, c, d, e, f :| ShapeAt(line, a, c, d, e, f) && k == line[c..d] && MentionsAction(line[e + 1..f]);
      ParseBindLineComplete(line, a, c, d, e, f);
    }
  }

  /** Line `i` of `ls` contributes the key `k`. */
  predicate Contributes(ls: seq<string>, i: int, k: string) {
    0 <= i < |ls| && PhantomKey(ls[i]) == Some(k)
  }

  /** The values `f` yields along `ls`, in order, skipping the lines where
      it yields nothing. */
  function Collect(f: string -> Option<string>, ls: seq<string>): (r: seq<string>)
    ensures |r| <= |ls|
  {
    if ls == [] then []
    else
      var head := match f(ls[0]) case Some(k) => [k] case None => [];
      head + Collect(f, ls[1..])
  }

  lemma {:induction false} CollectEmptyIff(f: string -> Option<string>, ls: seq<string>)
    ensures Collect(f, ls) == [] <==> forall i :: 0 <= i < |ls| ==> f(ls[i]).None?
  {
    if ls != [] {
      CollectEmptyIff(f, ls[1..]);
      assert forall i :: 1 <= i < |ls| ==> ls[i] == ls[1..][i - 1];
    }
  }

  lemma {:induction false} CollectFrom(f: string -> Option<string>, ls: seq<string>)
    ensures forall k :: k in Collect(f, ls) ==> exists i :: 0 <= i < |ls| && f(ls[i]) == Some(k)
  {
    if ls != [] {
      CollectFrom(f, ls[1..]);
      forall k | k in Collect(f, ls) ensures exists i :: 0 <= i < |ls| && f(ls[i]) == Some(k) {
        if k in Collect(f, ls[1..]) {
          var i :| 0 <= i < |ls[1..]| && f(ls[1..][i]) == Some(k);
          assert ls[i + 1] == ls[1..][i];
        } else {
          assert f(ls[0]) == Some(k);
        }
      }
    }
  }

  lemma {:induction false} CollectAppend(f: string -> Option<string>, a: seq<string>, b: seq<string>)
    ensures Collect(f, a + b) == Collect(f, a) + Collect(f, b)
  {
    if a == [] {
      assert a + b == b;
    } else {
      assert (a + b)[0] == a[0];
      assert (a + b)[1..] == a[1..] + b;
      CollectAppend(f, a[1..], b);
    }
  }

  /** The keys of the matching lines, one per line, in file order. */
  function PhantomKeys(ls: seq<string>): (r: seq<string>)
    ensures |r| <= |ls|
  {
    Collect(PhantomKey, ls)
  }

  /** Nothing is scrubbed exactly when no line contributes a key. */
  lemma PhantomKeysEmptyIff(ls: seq<string>)
    ensures PhantomKeys(ls) == [] <==> forall i :: 0 <= i < |ls| ==> PhantomKey(ls[i]).None?
  {
    CollectEmptyIff(PhantomKey, ls);
  }

  /** Every scrubbed key is the key of some contributing line. */
  lemma PhantomKeysContributed(ls: seq<string>)
    ensures forall k :: k in PhantomKeys(ls) ==> exists i :: Contributes(ls, i, k)
  {
    CollectFrom(PhantomKey, ls);
    forall k | k in PhantomKeys(ls) ensures exists i :: Contributes(ls, i, k) {
      var i :| 0 <= i < |ls| && PhantomKey(ls[i]) == Some(k);
      assert Contributes(ls, i, k);
    }
  }

  /** The scan is a homomorphism over concatenated files: the keys of `a + b`
      are the keys of `a` followed by the keys of `b`. Together with the
      one-line case this says each matching line contributes its key exactly
      once, in file order. */
  lemma PhantomKeysAppend(a: seq<string>, b: seq<string>)
    ensures PhantomKeys(a + b) == PhantomKeys(a) + PhantomKeys(b)
  {
    CollectAppend(PhantomKey, a, b);
  }

  /** A single line contributes its key exactly when it matches the bind
      pattern and its quoted command names one of the six identifiers. */
  lemma PhantomKeysOneLine(line: string)
    ensures PhantomKey(line).Some? <==>
      exists b :: ParseBindLine(line) == Some(b) && MentionsAction(b.command)
    ensures PhantomKeys([line]) == if PhantomKey(line).Some? then [PhantomKey(line).value] else []
  {
    assert [line][1..] == [];
  }

  /** The keys to unbind for a bind file; an unreadable file yields none. */
  function ScrubKeys(bindsFile: Option<string>): (r: seq<string>)
    ensures bindsFile.None? ==> r == []
  {
    match bindsFile
    case None => []
    case Some(text) => PhantomKeys(Lines(text))
  }
}

=== FILE: text.dfy ===
/** Character classes and string utilities shared by the key normaliser, the
    bind-line parser and the configuration-file renderer. Strings are
    sequences of `char`. Each `char` stands for one byte of the program's
    `std::string`: text outside ASCII is its UTF-8 bytes, one `char` per
    byte, so "first character" always means "first byte". */
module Text {
  import opened Options

  /** The NUL character: what a cleared one-character edit buffer holds. */
  const NUL: char := '\0'

  /** Whitespace as the C library classifies it in the "C" locale: space,
      tab, line feed, vertical tab, form feed and carriage return. */
  predicate IsSpace(c: char) {
    c == ' ' || c == '\t' || c == '\n' || c == '\r' || c as int == 0x0B || c as int == 0x0C
  }

  predicate NotSpace(c: char) {
    !IsSpace(c)
  }

  predicate NotQuote(c: char) {
    c != '"'
  }

  predicate IsLowerAscii(c: char) {
    'a' <= c <= 'z'
  }

  predicate IsUpperAscii(c: char) {
    'A' <= c <= 'Z'
  }

  /** Maps 'a'..'z' to 'A'..'Z' and leaves every other character alone. */
  function ToUpperAscii(c: char): (r: char)
    ensures !IsLowerAscii(r)
    ensures IsLowerAscii(c) ==> IsUpperAscii(r) && r as int + 32 == c as int
    ensures !IsLowerAscii(c) ==> r == c
  {
    if IsLowerAscii(c) then (c as int - 'a' as int + 'A' as int) as char else c
  }

  /** Maps 'A'..'Z' to 'a'..'z' and leaves every other character alone. */
  function ToLowerAscii(c: char): (r: char)
    ensures !IsUpperAscii(r)
    ensures IsUpperAscii(c) ==> IsLowerAscii(r) && r as int == c as int + 32
    ensures !IsUpperAscii(c) ==> r == c
  {
    if IsUpperAscii(c) then (c as int - 'A' as int + 'a' as int) as char else c
  }

  /** Every character of `s[i..j]` satisfies `p`. */
  predicate AllOf(p: char -> bool, s: string, i: int, j: int)
    requires 0 <= i <= j <= |s|
  {
    forall k :: i <= k < j ==> p(s[k])
  }

  /** The end of the maximal run of characters satisfying `p` that starts at `i`. */
  function Span(p: char -> bool, s: string, i: nat): (r: nat)
    requires i <= |s|
    ensures i <= r <= |s|
    ensures AllOf(p, s, i, r)
    ensures r < |s| ==> !p(s[r])
    decreases |s| - i
  {
    if i == |s| || !p(s[i]) then i else Span(p, s, i + 1)
  }

  /** A run is maximal exactly where the predicate first fails. */
  lemma {:induction false} SpanExact(p: char -> bool, s: string, i: nat, j: nat)
    requires i <= j <= |s|
    requires AllOf(p, s, i, j)
    requires j < |s| ==> !p(s[j])
    ensures Span(p, s, i) == j
    decreases j - i
  {
    if i < j {
      SpanExact(p, s, i + 1, j);
    }
  }

  /** Index of the first `c` in `s`, or `|s|` when there is none. */
  function IndexOf(s: string, c: char): (r: nat)
    ensures r <= |s|
    ensures forall k :: 0 <= k < r ==> s[k] != c
    ensures r < |s| ==> s[r] == c
    ensures c !in s <==> r == |s|
  {
    Span(x => x != c, s, 0)
  }

  /** `sub` occurs in `s` starting at index `i`. */
  predicate OccursAt(s: string, sub: string, i: int) {
    0 <= i && i + |sub| <= |s| && s[i..i + |sub|] == sub
  }

  /** `sub` occurs in `s` at some position (the test `find(sub) != npos`). */
  predicate Contains(s: string, sub: string) {
    exists i :: 0 <= i <= |s| && OccursAt(s, sub, i)
  }

  /** The lines `std::getline` reads from `s`, one by one: each read takes the
      characters up to the next line feed and consumes it; reading stops when
      nothing is left, so a final line feed does not start an empty line. */
  function Lines(s: string): (r: seq<string>)
    ensures s == [] <==> r == []
    ensures forall i :: 0 <= i < |r| ==> '\n' !in r[i]
    decreases |s|
  {
    if s == [] then []
    else
      var i := IndexOf(s, '\n');
      if i == |s| then [s] else [s[..i]] + Lines(s[i + 1..])
  }

  /** The text a writer produces by emitting every line followed by a line feed. */
  function JoinLines(ls: seq<string>): string {
    if ls == [] then [] else ls[0] + "\n" + JoinLines(ls[1..])
  }

  /** Reading lines back from a text written line by line gives the lines
      written, provided none of them contains a line feed. */
  lemma {:induction false} LinesOfJoinLines(ls: seq<string>)
    requires forall i :: 0 <= i < |ls| ==> '\n' !in ls[i]
    ensures Lines(JoinLines(ls)) == ls
  {
    if ls != [] {
      var l := ls[0];
      var rest := JoinLines(ls[1..]);
      var s := JoinLines(ls);
      assert s == l + "\n" + rest;
      assert s[|l|] == '\n';
      assert forall k :: 0 <= k < |l| ==> s[k] == l[k];
      assert IndexOf(s, '\n') == |l|;
      assert s[..|l|] == l;
      assert s[|l| + 1..] == rest;
      LinesOfJoinLines(ls[1..]);
    }
  }

  /** Splits `s` at every occurrence of `d`; there is always at least one piece. */
  function SplitOn(s: string, d: char): (r: seq<string>)
    ensures |r| >= 1
    ensures forall i :: 0 <= i < |r| ==> d !in r[i]
    decreases |s|
  {
    var i := IndexOf(s, d);
    if i == |s| then [s] else [s[..i]] + SplitOn(s[i + 1..], d)
  }

  /** Joins non-empty `parts` with the separator `d` between neighbours. */
  function Join(parts: seq<string>, d: char): string
    requires |parts| >= 1
  {
    if |parts| == 1 then parts[0] else parts[0] + [d] + Join(parts[1..], d)
  }

  /** Splitting a joined text at the separator gives the parts back, provided
      no part contains the separator. */
  lemma {:induction false} SplitOnJoin(parts: seq<string>, d: char)
    requires |parts| >= 1
    requires forall i :: 0 <= i < |parts| ==> d !in parts[i]
    ensures SplitOn(Join(parts, d), d) == parts
  {
    var p := parts[0];
    if |parts| == 1 {
      assert IndexOf(p, d) == |p|;
    } else {
      var rest := Join(parts[1..], d);
      var s := Join(parts, d);
      assert s == p + [d] + rest;
      assert s[|p|] == d;
      assert forall k :: 0 <= k < |p| ==> s[k] == p[k];
      assert IndexOf(s, d) == |p|;
      assert s[..|p|] == p;
      assert s[|p| + 1..] == rest;
      SplitOnJoin(parts[1..], d);
    }
  }

  /** The middle of `s` when it starts with `pre` and ends with `suf`. */
  function StripAround(s: string, pre: string, suf: string): (r: Option<string>)
    ensures r.Some? ==> s == pre + r.value + suf
  {
    if |s| >= |pre| + |suf| && s[..|pre|] == pre && s[|s| - |suf|..] == suf
    then Some(s[|pre|..|s| - |suf|])
    else None
  }

  /** Wrapping a text and stripping the same wrapper gives the text back. */
  lemma StripAroundWrapped(pre: string, m: string, suf: string)
    ensures StripAround(pre + m + suf, pre, suf) == Some(m)
  {
    var s := pre + m + suf;
    assert s[..|pre|] == pre;
    assert s[|s| - |suf|..] == suf;
    assert s[|pre|..|s| - |suf|] == m;
  }
}
